=== FILE: README.md ===
# Manatan proxy — a Dafny model

Manatan's server process is a small Rust front end. It reads its
configuration from the environment and starts an embedded backend through a
C interface. It then proxies HTTP requests and WebSocket sessions to that
backend. A build script fetches the backend's static library from a GitHub
release and caches it.

This project models the deterministic core of that program. It covers:

- the WebSocket message translations;
- the request rewriting of the proxy: upgrade detection, subprotocols,
  WebSocket URL, target path, the two header filters and the 502 mapping;
- ownership of the backend handle;
- assembly and validation of the backend start record;
- the environment-driven configuration;
- the pure decisions of the build script's asset sync.

Modules, one per component:

| file | module | models |
|---|---|---|
| `wrappers.dfy` | `Wrappers` | `Option` and `Result`, with `:-` propagation for Rust's `?` |
| `strings.dfy` | `Strings` | ASCII case folding, `trim`, `split`, decimal formatting, `parse::<u16>` and `parse::<i64>`; also a last-occurrence split that the `PathBuf::parent` model and the address contracts are stated with |
| `ws_message.dfy` | `WsMessage` | `axum_to_tungstenite` and `tungstenite_to_axum` |
| `proxy.dfy` | `Proxy` | `proxy_handler`, `handle_socket` (handshake only), `proxy_request` and `backend_ws_url` |
| `embedded_server.dfy` | `EmbeddedServer` | `EmbeddedServer` and its `Drop` |
| `config.dfy` | `AppConfig` | `Config::from_env`, `env_bool` and `Config::addr` |
| `backend_start.dfy` | `BackendStart` | `build_state` and `to_cstring` |
| `asset_sync.dfy` | `AssetSync` | `build.rs`: names, asset selection, metadata and `needs_download` |

Conventions:

- Text is `seq<char>`, and Rust's fixed-width integers are subset types (`u16`, `u64`, `i64`).
- The process environment is a `map<Str, Str>`.
- A header map is a sequence of name/value pairs in iteration order, with names lower-case as `HeaderMap` stores them. `get` yields the first value with that name.
- Everything the program obtains from outside is a parameter: the backend round trip (`send`), the backend's start entry point (`start`), the WebSocket handshake extractor's verdict, the backend connection, the GitHub release document and each file-system step.
- Each stop call on the backend handle is recorded in an ordinary sequence. "Stopped at most once" is then a statement about that record.

## Model

| member | source | states |
|---|---|---|
| `WsMessage.ClientToBackend` | src/app.rs:214-228 | every client message is forwarded (the result is never `None`) as the same kind, with the same text, payload or close frame, and never as a raw frame |
| `WsMessage.BackendToClient` | src/app.rs:230-245 | every backend message keeps its kind, text, payload and close code/reason; a raw `Frame` becomes an empty binary message |
| `WsMessage.ClientRoundTrip` | src/app.rs:214-245 | a client message translated to the backend and back is the same message, close code and reason included |
| `WsMessage.BackendRoundTrip` | src/app.rs:214-245 | a backend message other than a raw frame survives the round trip; a raw frame comes back as an empty binary |
| `WsMessage.ClientToBackendInjective` | src/app.rs:214-228 | distinct client messages are never translated to the same backend message |
| `WsMessage.RelayToBackend` | src/app.rs:151-154 | relaying toward the backend translates every message, in arrival order, dropping none |
| `WsMessage.RelayToClient` | src/app.rs:157-158 | relaying toward the client translates every message, in arrival order |
| `WsMessage.StreamRoundTrip` | src/app.rs:150-160 | a client stream relayed to the backend and back is the same stream |
| `Strings.EqIgnoreAsciiCaseIffLowerEqual` | src/app.rs:87 | comparing ignoring ASCII case is the same as comparing ASCII-lower-cased texts |
| `Strings.EqIgnoreAsciiCase` | src/app.rs:87 | equal length and equal letter by letter once ASCII letters are folded (definition; related to `Lower` by the lemma above) |
| `Strings.Lower` | src/config.rs:84 | same length, every character replaced by its ASCII lower-case form |
| `Strings.Trim` | src/app.rs:103 | the result neither starts nor ends with whitespace and is a slice of the input with only whitespace cut on each side |
| `Strings.TrimSkipsWhite` | src/app.rs:103 | a leading whitespace character does not change the trimmed text |
| `Strings.TrimOfTrimmed` | src/app.rs:103 | trimming an already trimmed text changes nothing |
| `Strings.Split` | src/app.rs:103 | there is one piece more than there are separators, no piece holds a separator, and joining the pieces gives the text back |
| `Strings.SplitJoin` | src/app.rs:103 | splitting separator-free pieces joined by the separator gives exactly those pieces |
| `Strings.RSplitOnce` | src/config.rs:31-40 | no result exactly when the character is absent; otherwise the two sides around its last occurrence, the right side free of it |
| `Strings.RSplitOnceOfJoin` | src/config.rs:31-40 | splitting `a + c + b` at the last `c`, where `b` has no `c`, gives `a` and `b` |
| `Strings.Decimal` | src/config.rs:77 | the decimal text of a number is non-empty, all digits, with no leading zero unless the number is zero |
| `Strings.DecimalInjective` | src/config.rs:77 | distinct numbers have distinct decimal texts |
| `Strings.ParseU16` | src/config.rs:22-25 | parses exactly the decimal texts (optional `+`) whose value fits in 16 bits |
| `Strings.ParseU16OfDecimal` | src/config.rs:22-25 | a port formatted in decimal parses back to the same port |
| `Strings.ParseI64` | src/config.rs:45-48 | an optional `+` or `-` then digits, in the signed 64-bit range: a minus sign negates, out-of-range values are rejected, and any other text (empty, `-` alone, non-digits) is rejected |
| `Strings.SignedDecimal` | src/config.rs:45-48 | the decimal text of a signed number begins with `-` exactly when the number is negative |
| `Strings.ParseI64OfSignedDecimal` | src/config.rs:45-48 | every signed 64-bit number written in decimal, -2^63 included, parses back to itself |
| `Proxy.Get` | src/app.rs:83-88 | no value exactly when no header has the name; otherwise the value of the first header with that name |
| `Proxy.IsWebSocketRequest` | src/app.rs:83-88 | a request is an upgrade iff its first `upgrade` header is readable text equal to `websocket` up to ASCII case |
| `Proxy.UpgradeIgnoresCase` | src/app.rs:87 | every ASCII-case spelling of `websocket` in the upgrade header is recognised |
| `Proxy.Subprotocols` | src/app.rs:99-104 | none for a missing or unreadable header; otherwise commas + 1 pieces, each trimmed and free of commas |
| `Proxy.SubprotocolsOfParts` | src/app.rs:99-104 | a header made of comma-free pieces joined by commas yields exactly those pieces, each trimmed |
| `Proxy.SubprotocolsOfJoin` | src/app.rs:99-104 | a header listing trimmed comma-free protocols yields exactly that list |
| `Proxy.BackendWsUrl` | src/app.rs:247-255 | the result starts with `ws://` or `wss://`, and with `wss://` exactly when the base starts with `https://` |
| `Proxy.WsUrlOfHttps` | src/app.rs:248-249 | `https://X` becomes `wss://X` |
| `Proxy.WsUrlOfHttp` | src/app.rs:250-251 | `http://X` becomes `ws://X` |
| `Proxy.WsUrlOfSchemeless` | src/app.rs:252-253 | any other base is prefixed with `ws://` |
| `Proxy.TargetPath` | src/app.rs:176-180 | the prefix is removed exactly when it is non-empty and starts the path and query; otherwise the path and query are kept unchanged |
| `Proxy.TargetPathStripsMount` | src/app.rs:176-177 | stripping a non-empty prefix from prefix + path gives the path |
| `Proxy.PathQuery` | src/app.rs:91-95 | the request's path and query when it has one, its path otherwise |
| `Proxy.ForwardHeaders` | src/app.rs:188-192 | a header is forwarded on the HTTP leg iff it is inbound and not named `host` |
| `Proxy.ForwardHeadersConcat` | src/app.rs:188-192 | the filter keeps the inbound order: filtering a concatenation filters each part |
| `Proxy.ForwardHeadersNoHost` | src/app.rs:188-192 | without a `host` header every header is forwarded, in order |
| `Proxy.CopyAllowed` | src/app.rs:129-139 | a header is copied iff its name is allowed and it is the first inbound value for that name; with no name listed twice, no name is copied twice |
| `Proxy.CopyAllowedConcat` | src/app.rs:129-139 | copying for two lists of names in turn is copying for their concatenation, so the copied headers follow the allow-list order |
| `Proxy.WsHandshakeHeaders` | src/app.rs:129-139 | the inbound headers copied into the backend handshake are at most the five allowed ones, only those present inbound, with their values unchanged, and no name more than once |
| `Proxy.HandshakeDropsOthers` | src/app.rs:129-139 | no inbound header outside the allow-list is copied into the backend handshake |
| `Proxy.BackendRequest` | src/app.rs:171-192 | the backend request keeps the method and body, its URL is the base followed by the path and query, minus the strip prefix when it is non-empty and present (base + path and query when nothing is stripped), and its headers are exactly the inbound ones without `host`, in order and with repeats kept (`ForwardHeaders`) |
| `Proxy.RelayReply` | src/app.rs:194-211 | a transport error gives 502 with no headers and an empty body; otherwise the backend's status, headers and body are copied |
| `Proxy.ProxyRequest` | src/app.rs:165-212 | when the backend send fails with a transport error, the client receives an empty 502; when the backend replies, the client receives that reply's status, headers and body unchanged |
| `Proxy.UnreachableGives502` | src/app.rs:207-210 | with an unreachable backend every proxied request yields an empty 502 |
| `Proxy.Handle` | src/app.rs:81-119 | a request is forwarded over HTTP iff it is not a WebSocket upgrade, to base + path and query with `host` dropped; an upgrade is bridged iff the extractor accepts it, to the `ws` form of the base URL, with the parsed subprotocols and all inbound headers handed over |
| `Proxy.ProxyRequestNoStrip` | src/app.rs:118 | with the empty strip prefix the target URL is base + path and query |
| `Proxy.OpenSession` | src/app.rs:121-146 | a bridge session relays iff the URL is valid and the backend connects; its handshake goes to that URL, and of the inbound headers it copies exactly the allowed ones present, each name at most once |
| `EmbeddedServer.Drop` | src/app.rs:72-79 | afterwards the handle is null; exactly one stop, for the held handle, is added when the handle was live, and none when it was null |
| `EmbeddedServer.DropIdempotent` | src/app.rs:74-77 | a second drop issues no further stop |
| `EmbeddedServer.DropManyStopsOnce` | src/app.rs:72-79 | however many drops run, the stop log grows by the held handle once, or not at all for a null handle |
| `EmbeddedServer.StartedHandleStoppedExactlyOnce` | src/app.rs:56-79 | a handle wrapped at start and dropped any positive number of times is stopped exactly once |
| `EmbeddedServer.DropKeepsOwned` | src/app.rs:72-79 | dropping preserves the ownership invariant: no handle stopped twice, a live handle not yet stopped |
| `EmbeddedServer.WrapIsOwned` | src/app.rs:56-62 | a freshly wrapped handle satisfies the ownership invariant |
| `EmbeddedServer.Wrap` | src/app.rs:56-62 | a freshly wrapped handle is live with nothing stopped (definition; its invariant is `WrapIsOwned`) |
| `AppConfig.EnvBool` | src/config.rs:81-90 | a lower-cased value in {1, true, yes, on} is true, one in {0, false, no, off} is false, anything else or unset is the default |
| `AppConfig.EnvBoolIgnoresCase` | src/config.rs:84 | values equal up to ASCII case read as the same boolean |
| `AppConfig.DbParent` | src/config.rs:31-40 | a path without `/`, or `/` itself, has parent `.`; a file directly under the root has parent `/`; otherwise the parent followed by `/` starts the path, and no `/` comes after it |
| `AppConfig.DbParentOfFile` | src/config.rs:31-40 | the parent of `dir/file` is `dir` |
| `AppConfig.DataDir` | src/config.rs:49-56 | a set directory variable wins; otherwise the named entry under the database's parent directory |
| `AppConfig.DbPathOf` | src/config.rs:29-30 | `MANATAN_DB_PATH` when set, `manatan.sqlite` otherwise |
| `AppConfig.JoinPath` | src/config.rs:49-56 | the name under the base, separated by exactly one `/`, so the result is the base and the name plus one character unless the base already ends in `/`; the bare name under an empty base |
| `AppConfig.FromEnv` | src/config.rs:20-74 | a parsable port or TTL variable gives its parsed value, and an unset or unparsable one gives 4568 or 3600; each boolean is `env_bool` of its variable with defaults off, on, on; a set database path is used as given; an unset host, Java URL, database path or index URL gives `127.0.0.1`, the local Java URL, `manatan.sqlite` or the empty string, whatever the other variables hold |
| `AppConfig.FromEnvDefaults` | src/config.rs:20-74 | with none of its variables set the configuration is exactly the documented default record, data directories under `.` |
| `AppConfig.ScalarDefaults` | src/config.rs:20-48 | with just these ten variables unset, whatever the others hold, they give host 127.0.0.1, port 4568, the local Java URL, webview off, an empty index URL, aidoku on, `manatan.sqlite`, no migration source, remote search on, TTL 3600 |
| `AppConfig.PathDefaults` | src/config.rs:29-56 | with just the four directory variables and the database path unset, whatever the others hold, the directories are `./aidoku`, `./downloads`, `./local-manga` and `./local-anime` |
| `AppConfig.DefaultDbParent` | src/config.rs:29-40 | the default database file's parent directory is `.` |
| `AppConfig.FromEnvOverrides` | src/config.rs:20-56 | every set string or path variable is used as given, and the migration source is present exactly when its variable is set |
| `AppConfig.FromEnvDerivedPaths` | src/config.rs:49-56 | each unset data directory is its entry under the parent of the database path in use |
| `AppConfig.DataDirBesideDb` | src/config.rs:31-56 | a database at `dir/file` places the default data directories at `dir/name` |
| `AppConfig.FromEnvPort` | src/config.rs:22-25 | a port variable holding a port in decimal yields that port |
| `AppConfig.Addr` | src/config.rs:76-78 | splitting the address at its last colon gives back the host and the decimal port, which parses back to the port |
| `BackendStart.ToCString` | src/lib.rs:75-77 | fails exactly when the text holds a NUL, with error `<label> contains NUL bytes`; otherwise passes the text through |
| `BackendStart.BackendHost` | src/lib.rs:24-25 | `MANATAN_BACKEND_HOST` when set, `127.0.0.1` otherwise |
| `BackendStart.SaturatingIncrement` | src/lib.rs:29 | the port plus one, held at 65535 where that would overflow 16 bits |
| `BackendStart.BackendPort` | src/lib.rs:26-29 | a parsable override wins; otherwise the listen port plus one, held at 65535, so above the listen port unless both are 65535 |
| `BackendStart.BackendPortDefault` | src/lib.rs:26-29 | without an override and below 65535 the backend listens on the next port |
| `BackendStart.BackendUrl` | src/lib.rs:31 | the backend URL is `http://` followed by host, colon and decimal port, which split back apart at the last colon |
| `BackendStart.BackendWsUrlOfBackendUrl` | src/lib.rs:31 | the WebSocket leg reaches the same host and port over `ws://` |
| `BackendStart.FlagByte` | src/lib.rs:51 | a flag is the byte 1 when set and 0 otherwise |
| `BackendStart.CheckedFields` | src/lib.rs:33-45 | eight fields in the fixed order, each under the label its error uses (`backend_host` … `local_anime_path`), plus `migrate_path` only when the migration source is set and non-empty |
| `BackendStart.ValidateAll` | src/lib.rs:33-45 | on success, every field converted unchanged and in order |
| `BackendStart.PrepareStart` | src/lib.rs:33-65 | a prepared record carries the backend host and backend port |
| `BackendStart.FirstNul` | src/lib.rs:33-45 | none iff no field holds a NUL; otherwise the label of a field that holds one |
| `BackendStart.ValidateAllReportsFirstNul` | src/lib.rs:33-45 | validating a list of fields fails iff one holds a NUL, and the error names the first such field |
| `BackendStart.PrepareReportsFirstNul` | src/lib.rs:33-45 | preparing the start fails iff some checked field holds a NUL, reporting the first in the fixed order |
| `BackendStart.RecordCarriesConfig` | src/lib.rs:42-65 | the record carries the backend host (not the listen host), the backend port, the flags as 1/0, the TTL unchanged, every string as configured, and a migration source exactly when one is set and non-empty |
| `BackendStart.BuildState` | src/lib.rs:23-73 | a validation error is returned as is; a null handle gives `manatan_server_start failed`; a non-null handle gives success holding exactly that handle, live and never stopped, with the configuration and the backend URL |
| `BackendStart.ValidationFailureSkipsStart` | src/lib.rs:33-67 | after a validation failure the outcome does not depend on the start entry point, which is never reached |
| `BackendStart.StartedStateStopsOnce` | src/lib.rs:67-72 | a state as `build_state` returns it (a live handle, nothing stopped) has that handle stopped exactly once however many times it is torn down |
| `AssetSync.LibName` | build.rs:22-27 | `manatan_server.lib` exactly when the target contains `windows`, else `libmanatan_server.a` |
| `AssetSync.MetaName` | build.rs:29-30 | the metadata file is the library's name followed by `.asset-meta`, never the library's own name |
| `AssetSync.LibNameHasAssetExt` | build.rs:22-27 | the library file name ends with a dot and the release asset's extension |
| `AssetSync.AssetExt` | build.rs:99 | `lib` exactly for a Windows target, `a` otherwise |
| `AssetSync.PrimaryName` | build.rs:100 | `manatan-server-`, the target, a dot and the extension |
| `AssetSync.LegacyName` | build.rs:101 | the primary name with the prefix written twice (definition; related to the primary name by the next lemma) |
| `AssetSync.LegacyNameDoublesPrefix` | build.rs:99-101 | the legacy asset name is the primary one with `manatan-server-` doubled, so the two differ |
| `AssetSync.FindFrom` | build.rs:110-115 | the first entry at or after a position named as the primary or legacy asset, or none iff no later entry is |
| `AssetSync.Find` | build.rs:110-121 | the first listed entry with the primary or legacy name, or none iff no entry has either |
| `AssetSync.ReadAsset` | build.rs:123-147 | id, name and download URL are required in that order, each with its own error; a missing update time is kept as absent |
| `AssetSync.AssetInfo` | build.rs:92-148 | an API error passes through, a missing asset list and a missing asset each give their own error, and a found asset is read field by field (id, name and URL errors in that order) |
| `AssetSync.AssetInfoPicksFirstWanted` | build.rs:110-147 | the asset used is a listed entry with the primary or legacy name, keeping that entry's id, URL and update time, so `asset name missing` never occurs |
| `AssetSync.ExpectedMeta` | build.rs:71-76 | the three lines `id=`, `name=` and `updated_at=` (empty when absent), each ended by a newline (definition; its injectivity is the next lemma) |
| `AssetSync.ExpectedMetaInjective` | build.rs:71-76 | for names without line breaks, two metadata texts are equal iff the assets agree on id, name and update time (missing read as empty) |
| `AssetSync.NeedsDownload` | build.rs:78-79 | the library is absent or the metadata is missing or differs from the expected text (definition; the sync lemmas use it) |
| `AssetSync.Fetch` | build.rs:81-87 | succeeds iff every step succeeds, leaving the complete asset and its metadata; the first failing step gives its own message (`create dir failed: `, `download failed: `, `create file failed: `, `write failed: ` with a truncated library, `write meta failed: ` with a complete one), and the metadata is never anything but unchanged or the new text; every failing step leaves the metadata unchanged |
| `AssetSync.SyncAsWritten` | build.rs:62-90 | nothing happens when no download is needed; otherwise the result is the download's, succeeding iff every step does; a failed download leaves the metadata unchanged; a copy failure leaves a truncated library, and a failure before the file is created leaves the disk untouched; success leaves the complete asset or the untouched present library |
| `AssetSync.SyncAsWrittenTrustsPartialLibrary` | build.rs:78-87 | a copy failure while the library is missing and its metadata is current leaves a partial library that the next run keeps |
| `AssetSync.SyncAsWrittenSuccessHasCurrentLibrary` | build.rs:78-89 | on success from a trustworthy disk, the program's own sync leaves the complete current asset and its metadata |
| `AssetSync.SyncAsWrittenIdempotent` | build.rs:78-89 | after a successful run of the program's own sync, a second run for the same asset needs no download and changes nothing |
| `AssetSync.Sync` | build.rs:62-90 | nothing happens when no download is needed; otherwise the result is the download's, succeeding iff every step does, and after a failed attempt no metadata file remains |
| `AssetSync.SyncKeepsConsistent` | build.rs:78-87 | whatever fails, a disk whose metadata describes its library stays that way |
| `AssetSync.SyncSuccessHasCurrentLibrary` | build.rs:78-89 | on success from a trustworthy disk, the library is the complete current asset and the metadata its text |
| `AssetSync.SyncIdempotent` | build.rs:78-89 | after a successful sync, a second run for the same asset needs no download and changes nothing |
| `AssetSync.SyncMatchesAsWritten` | build.rs:62-90 | the corrected sync returns the same result and library as the program's own, and on success the same disk; only the metadata left by a failure differs |
| `AssetSync.Build` | build.rs:32-47 | `main` with the corrected sync: a lookup or sync failure panics with `Failed to sync static library for <target> at <path>: <error>`; a successful sync links the disk it leaves, so the build links iff lookup and sync succeed; from a trustworthy disk the linked library is the current asset |
| `AssetSync.BuildAsWritten` | build.rs:32-47 | `main` with the program's own sync: a lookup or sync failure panics with `Failed to sync static library for <target> at <path>: <error>`; a successful sync links the disk it leaves, so the build links iff lookup and sync succeed; from a trustworthy disk the linked library is the current asset |
| `AssetSync.BuildSameAsWritten` | build.rs:32-90 | the correction never changes how a build ends (same panic message or same linked disk), only what a failed build leaves behind |
| `AssetSync.BuildNeverMissesLibrary` | build.rs:41-47 | after a successful sync the missing-library panic is never reached |

## Left out

- The `tokio::select!` relay loop of `handle_socket` (src/app.rs:147-162) races two concurrent readers. Only the per-direction message mapping it performs is modelled.
- The router and its CORS layer (src/app.rs:32-54) are library configuration with no logic of their own.
- `WebSocketUpgrade`'s handshake and its subprotocol negotiation (src/app.rs:106-114) are axum behaviour. The extractor's verdict is the boolean `upgradeAccepted`.
- `into_client_request` and `connect_async` (src/app.rs:122-146) are the booleans `urlValid` and `connected`.
- The handshake headers the WebSocket client library adds on its own are not modelled: `Host`, `Connection`, `Upgrade: websocket`, `Sec-WebSocket-Version` and `Sec-WebSocket-Key` (src/app.rs:122). `Handshake.headers` holds only the inbound headers copied over at src/app.rs:129-139.
- Streaming bodies, `reqwest` and the response builder are left out. Bodies are sequences of chunks passed through unchanged.
- The builder's fallback to 502 when assembling the copied response fails (src/app.rs:202-205) is not modelled. A status and headers taken from a valid backend response always assemble.
- The C interface (src/ffi.rs) and the `unsafe` calls are left out. `manatan_server_start` is the function parameter `start` returning an optional handle. `manatan_server_stop` is an entry in the stop log. The lifetimes of the `CString`s handed across the interface are not modelled.
- `std::env`, file-system access, `ureq` and `serde_json` are left out. The environment is a map. The release document arrives already decoded, as records whose fields are `None` when missing or of the wrong JSON type. Each file-system or network step's outcome is an input.
- The GitHub API URL, the repository and tag selection, and the request headers and token (build.rs:97-103, 150-163) only feed the network call and are not modelled.
- A failed metadata write (build.rs:86) is modelled as leaving the old file as it was, where `fs::write` may already have truncated it. The library is complete at that point, so neither reading leaves a partial library that a later run trusts.
- The cargo link directives and the `cef_app` module (build.rs:49-59, src/lib.rs:4) are not part of this model.
- `Strings.Trim`: only ASCII whitespace is removed, where Rust's `trim` also removes other Unicode white space. The values concerned come from headers that must be visible ASCII, so the difference cannot arise there.
- `Strings.Lower`: only ASCII letters are folded, where `env_bool` uses Unicode `to_lowercase`. No non-ASCII character lower-cases into one of the eight recognised words, so every boolean reading is the same.
- `AppConfig.DbParent`: paths are `/`-separated text. `PathBuf::parent`'s handling of repeated or trailing separators, `.` and `..` components and Windows prefixes is not modelled.
- `Proxy.Get`: a header map is a sequence whose names are already lower-case. `HeaderMap`'s own name normalisation and hashing are not modelled.

## Findings

| source | as written | input that shows it | evidently intended | confidence | as-written member | corrected member |
|---|---|---|---|---|---|---|
| build.rs:78-87 | when a download is needed, the old `.asset-meta` file stays in place while the library is rewritten | the library file is deleted while its metadata still matches the current asset; the next build's download then fails after `File::create` (a reset connection during `io::copy`) | a metadata file present only beside the complete library it describes, so a partial library is fetched again on the next build | medium, not executed | `AssetSync.SyncAsWrittenTrustsPartialLibrary` | `AssetSync.SyncKeepsConsistent` |

The as-written sync is `AssetSync.SyncAsWritten`. The corrected `AssetSync.Sync` removes the stale metadata before downloading, and `AssetSync.Build` uses the corrected form. `AssetSync.BuildAsWritten` is `main` with the program's own sync, and `AssetSync.BuildSameAsWritten` shows the two end every build the same way.

=== FILE: asset_sync.dfy ===
/** The build script's release-asset synchronisation (`build.rs`): which
    library and asset names a target uses, which listed asset is picked,
    how its fields are read, the metadata text recorded beside the library,
    and the decision to download again. The release listing is given as
    already-decoded records; the file system is a small record of what is
    on disk, and every I/O step's outcome is an input. */
module AssetSync {
  import opened Wrappers
  import opened Strings

  // ------------------------------------------------------------- names

  predicate IsWindows(target: Str) {
    Contains(target, "windows")
  }

  const WindowsLib: Str := "manatan_server.lib"
  const UnixLib: Str := "libmanatan_server.a"
  const MetaSuffix: Str := ".asset-meta"
  const AssetPrefix: Str := "manatan-server-"

  /** The static library's file name for a target. */
  function LibName(target: Str): (r: Str)
    ensures IsWindows(target) <==> r == WindowsLib
    ensures r == WindowsLib || r == UnixLib
  {
    if IsWindows(target) then WindowsLib else UnixLib
  }

  /** The metadata file sits beside the library, named after it. */
  function MetaName(target: Str): (r: Str)
    ensures IsPrefix(LibName(target), r) && r[|LibName(target)|..] == MetaSuffix
    ensures r != LibName(target)
  {
    LibName(target) + MetaSuffix
  }

  /** The release asset's extension: `lib` on Windows, `a` elsewhere. */
  function AssetExt(target: Str): (r: Str)
    ensures r == "lib" <==> IsWindows(target)
    ensures r == "lib" || r == "a"
  {
    if IsWindows(target) then "lib" else "a"
  }

  /** The library file name and the asset extension agree: the library
      ends with a dot and the asset's extension. */
  lemma LibNameHasAssetExt(target: Str)
    ensures var lib, ext := LibName(target), AssetExt(target);
            |lib| > |ext| && lib[|lib| - |ext| - 1..] == ['.'] + ext
  {
    if IsWindows(target) {
      assert WindowsLib[|WindowsLib| - 4..] == ".lib";
    } else {
      assert UnixLib[|UnixLib| - 2..] == ".a";
    }
  }

  /** The release asset's name for a target: the prefix, the target, a dot
      and the extension. */
  function PrimaryName(target: Str): (r: Str)
    ensures IsPrefix(AssetPrefix + target, r)
    ensures r[|AssetPrefix + target|..] == ['.'] + AssetExt(target)
  {
    AssetPrefix + target + "." + AssetExt(target)
  }

  function LegacyName(target: Str): Str {
    AssetPrefix + AssetPrefix + target + "." + AssetExt(target)
  }

  /** The legacy asset name is the primary one with the prefix doubled, so
      the two are never the same name. */
  lemma LegacyNameDoublesPrefix(target: Str)
    ensures LegacyName(target) == AssetPrefix + PrimaryName(target)
    ensures LegacyName(target) != PrimaryName(target)
    ensures IsPrefix(AssetPrefix, PrimaryName(target)) && IsPrefix(AssetPrefix, LegacyName(target))
  {
    assert |LegacyName(target)| == |PrimaryName(target)| + |AssetPrefix|;
  }

  // ----------------------------------------------------------- listing

  /** One entry of the release's `assets` array; a field that is missing
      or not of the expected JSON type is `None`. */
  datatype JsonAsset = JsonAsset(
    id: Option<u64>,
    name: Option<Str>,
    downloadUrl: Option<Str>,
    updatedAt: Option<Str>)

  /** The release document; `assets` is `None` when the key is missing or
      not an array. */
  datatype ReleaseJson = ReleaseJson(assets: Option<seq<JsonAsset>>)

  /** The asset the build uses (`ReleaseAsset`). */
  datatype ReleaseAsset = ReleaseAsset(id: u64, name: Str, downloadUrl: Str, updatedAt: Option<Str>)

  const AssetsMissing: Str := "release assets missing"
  const IdMissing: Str := "asset id missing"
  const NameMissing: Str := "asset name missing"
  const UrlMissing: Str := "asset download URL missing"

  function NotFound(primary: Str, legacy: Str): Str {
    "asset not found: " + primary + " (or " + legacy + ")"
  }

  /** An entry is wanted when its name is the primary or the legacy name. */
  predicate Wanted(a: JsonAsset, primary: Str, legacy: Str) {
    a.name == Some(primary) || a.name == Some(legacy)
  }

  /** The position of the first wanted entry at or after `from`. */
  function FindFrom(assets: seq<JsonAsset>, primary: Str, legacy: Str, from: nat): (r: Option<nat>)
    requires from <= |assets|
    ensures r.None? <==> forall i :: from <= i < |assets| ==> !Wanted(assets[i], primary, legacy)
    ensures r.Some? ==> from <= r.value < |assets| && Wanted(assets[r.value], primary, legacy)
                        && forall j :: from <= j < r.value ==> !Wanted(assets[j], primary, legacy)
    decreases |assets| - from
  {
    if from == |assets| then None
    else if Wanted(assets[from], primary, legacy) then Some(from)
    else FindFrom(assets, primary, legacy, from + 1)
  }

  /** `Iterator::find`: the first wanted entry, if any. */
  function Find(assets: seq<JsonAsset>, primary: Str, legacy: Str): (r: Option<nat>)
    ensures r.None? <==> forall i :: 0 <= i < |assets| ==> !Wanted(assets[i], primary, legacy)
    ensures r.Some? ==> r.value < |assets| && Wanted(assets[r.value], primary, legacy)
                        && forall j :: 0 <= j < r.value ==> !Wanted(assets[j], primary, legacy)
  {
    FindFrom(assets, primary, legacy, 0)
  }

  /** Reads id, name and download URL in that order, failing on the first
      one missing; a missing update time is kept as absent. */
  function ReadAsset(a: JsonAsset): (r: Result<ReleaseAsset, Str>)
    ensures r.Ok? <==> a.id.Some? && a.name.Some? && a.downloadUrl.Some?
    ensures a.id.None? ==> r == Err(IdMissing)
    ensures a.id.Some? && a.name.None? ==> r == Err(NameMissing)
    ensures a.id.Some? && a.name.Some? && a.downloadUrl.None? ==> r == Err(UrlMissing)
    ensures r.Ok? ==> r.value == ReleaseAsset(a.id.value, a.name.value, a.downloadUrl.value, a.updatedAt)
  {
    var id :- (if a.id.Some? then Ok(a.id.value) else Err(IdMissing));
    var name :- (if a.name.Some? then Ok(a.name.value) else Err(NameMissing));
    var url :- (if a.downloadUrl.Some? then Ok(a.downloadUrl.value) else Err(UrlMissing));
    Ok(ReleaseAsset(id, name, url, a.updatedAt))
  }

  /** `release_asset_info` after the API call: a failed call's error passes
      through; then the asset list, the first wanted entry and its fields. */
  function AssetInfo(json: Result<ReleaseJson, Str>, target: Str): (r: Result<ReleaseAsset, Str>)
    ensures json.Err? ==> r == Err(json.error)
    ensures json.Ok? && json.value.assets.None? ==> r == Err(AssetsMissing)
    ensures json.Ok? && json.value.assets.Some?
            && Find(json.value.assets.value, PrimaryName(target), LegacyName(target)).None? ==>
              r == Err(NotFound(PrimaryName(target), LegacyName(target)))
    ensures json.Ok? && json.value.assets.Some?
            && Find(json.value.assets.value, PrimaryName(target), LegacyName(target)).Some? ==>
              r == ReadAsset(json.value.assets.value[Find(json.value.assets.value, PrimaryName(target), LegacyName(target)).value])
  {
    var release :- json;
    var assets :- (if release.assets.Some? then Ok(release.assets.value) else Err(AssetsMissing));
    var primary, legacy := PrimaryName(target), LegacyName(target);
    match Find(assets, primary, legacy)
    case None => Err(NotFound(primary, legacy))
    case Some(i) => ReadAsset(assets[i])
  }

  /** The asset picked is the first listed entry carrying the primary or
      the legacy name, and the name it is used under is that name; since
      the pick is by name, "asset name missing" never happens. */
  lemma AssetInfoPicksFirstWanted(json: Result<ReleaseJson, Str>, target: Str)
    ensures json.Ok? ==> AssetInfo(json, target) != Err(NameMissing)
    ensures AssetInfo(json, target).Ok? ==>
              json.Ok? && json.value.assets.Some?
              && var assets, a := json.value.assets.value, AssetInfo(json, target).value;
                 (a.name == PrimaryName(target) || a.name == LegacyName(target))
                 && exists i :: 0 <= i < |assets| && assets[i].id == Some(a.id)
                                && assets[i].downloadUrl == Some(a.downloadUrl)
                                && assets[i].updatedAt == a.updatedAt
                                && Wanted(assets[i], PrimaryName(target), LegacyName(target))
                                && forall j :: 0 <= j < i ==> !Wanted(assets[j], PrimaryName(target), LegacyName(target))
  {
    assert NotFound(PrimaryName(target), LegacyName(target)) != NameMissing by {
      var nf := NotFound(PrimaryName(target), LegacyName(target));
      assert nf[7] == 'o' && NameMissing[7] == 'a';
    }
    if json.Ok? && json.value.assets.Some? {
      var assets := json.value.assets.value;
      var k := Find(assets, PrimaryName(target), LegacyName(target));
      if k.Some? {
        assert AssetInfo(json, target) == ReadAsset(assets[k.value]);
      }
    }
  }

  // -------------------------------------------------------------- meta

  /** One `key=value` line of the metadata text. */
  function MetaLine(key: Str, value: Str): Str {
    key + value + "\n"
  }

  /** The metadata text recorded beside a downloaded library: id, name and
      update time (empty when absent), one line each. */
  function ExpectedMeta(a: ReleaseAsset): Str {
    MetaLine("id=", Decimal(a.id)) + MetaLine("name=", a.name) + MetaLine("updated_at=", a.updatedAt.GetOr(""))
  }

  lemma NoNewlineInDecimal(n: nat)
    ensures '\n' !in Decimal(n)
  {
    var d := Decimal(n);
    forall i | 0 <= i < |d| ensures d[i] != '\n' {
      assert IsDigit(d[i]);
    }
  }

  /** A line whose value has no line break can be read back off the front
      of a text: the value and the rest are determined. */
  lemma MetaLineFirst(key: Str, v: Str, rest: Str, v': Str, rest': Str)
    requires '\n' !in v && '\n' !in v'
    requires MetaLine(key, v) + rest == MetaLine(key, v') + rest'
    ensures v == v' && rest == rest'
  {
    var s := MetaLine(key, v) + rest;
    assert s[|key|..] == v + ['\n'] + rest;
    assert (MetaLine(key, v') + rest')[|key|..] == v' + ['\n'] + rest';
    SplitAtFirst(v, rest, v', rest', '\n');
  }

  lemma MetaLineValue(key: Str, v: Str, v': Str)
    requires MetaLine(key, v) == MetaLine(key, v')
    ensures v == v'
  {
    assert v == MetaLine(key, v)[|key|..|key| + |v|];
  }

  /** Metadata texts agree exactly when the assets agree on id, name and
      update time (a missing time reads as empty), for names without a line
      break: the text identifies the asset it was written for. */
  lemma {:induction false} ExpectedMetaInjective(a: ReleaseAsset, b: ReleaseAsset)
    requires '\n' !in a.name && '\n' !in b.name
    ensures ExpectedMeta(a) == ExpectedMeta(b) <==>
              a.id == b.id && a.name == b.name && a.updatedAt.GetOr("") == b.updatedAt.GetOr("")
  {
    if ExpectedMeta(a) == ExpectedMeta(b) {
      var ua, ub := MetaLine("updated_at=", a.updatedAt.GetOr("")), MetaLine("updated_at=", b.updatedAt.GetOr(""));
      var ta, tb := MetaLine("name=", a.name) + ua, MetaLine("name=", b.name) + ub;
      assert ExpectedMeta(a) == MetaLine("id=", Decimal(a.id)) + ta;
      assert ExpectedMeta(b) == MetaLine("id=", Decimal(b.id)) + tb;
      NoNewlineInDecimal(a.id);
      NoNewlineInDecimal(b.id);
      MetaLineFirst("id=", Decimal(a.id), ta, Decimal(b.id), tb);
      DecimalInjective(a.id, b.id);
      MetaLineFirst("name=", a.name, ua, b.name, ub);
      MetaLineValue("updated_at=", a.updatedAt.GetOr(""), b.updatedAt.GetOr(""));
    }
  }

  // ------------------------------------------------------------- cache

  /** What the library file holds: the complete download of the asset the
      given metadata describes, or a partial write. */
  datatype LibFile = Complete(asset: Str) | Truncated

  /** The files the build script looks at. */
  datatype Disk = Disk(lib: Option<LibFile>, meta: Option<Str>)

  /** `needs_download`: the library is absent, or the metadata file is
      missing or differs from what the current asset would record. */
  predicate NeedsDownload(d: Disk, expected: Str) {
    d.lib.None? || d.meta != Some(expected)
  }

  /** How a download attempt ends: the request fails, the file cannot be
      created, the copy fails after the file was created (leaving it
      partial), or the whole body is written. */
  datatype Download = RequestFailed(reason: Str) | CreateFailed(reason: Str) | CopyFailed(reason: Str) | Fetched

  /** The outcomes of the I/O steps a download would take. */
  datatype Io = Io(createDir: Option<Str>, download: Download, writeMeta: Option<Str>)

  /** Every step of a download succeeds. */
  predicate AllSucceed(io: Io) {
    io.createDir.None? && io.download.Fetched? && io.writeMeta.None?
  }

  /** The whole download step on disk `d`, which already lacks the
      metadata file or holds it as the caller left it. The steps run in
      order and the first failure ends it with that step's message. */
  function Fetch(d: Disk, expected: Str, io: Io): (r: (Disk, Result<(), Str>))
    ensures r.1.Ok? <==> AllSucceed(io)
    ensures r.1.Err? ==> r.0.meta == d.meta
    ensures r.1.Ok? ==> r.0 == Disk(Some(Complete(expected)), Some(expected))
    ensures r.0.meta == d.meta || r.0.meta == Some(expected)
    ensures r.0.lib == d.lib || r.0.lib == Some(Truncated) || r.0.lib == Some(Complete(expected))
    ensures io.createDir.Some? ==> r == (d, Err("create dir failed: " + io.createDir.value))
    ensures io.createDir.None? && io.download.RequestFailed? ==>
              r == (d, Err("download failed: " + io.download.reason))
    ensures io.createDir.None? && io.download.CreateFailed? ==>
              r == (d, Err("create file failed: " + io.download.reason))
    ensures io.createDir.None? && io.download.CopyFailed? ==>
              r.0.lib == Some(Truncated) && r.1 == Err("write failed: " + io.download.reason)
    ensures io.createDir.None? && io.download.Fetched? && io.writeMeta.Some? ==>
              r.0.lib == Some(Complete(expected)) && r.1 == Err("write meta failed: " + io.writeMeta.value)
  {
    if io.createDir.Some? then (d, Err("create dir failed: " + io.createDir.value))
    else match io.download
      case RequestFailed(e) => (d, Err("download failed: " + e))
      case CreateFailed(e) => (d, Err("create file failed: " + e))
      case CopyFailed(e) => (d.(lib := Some(Truncated)), Err("write failed: " + e))
      case Fetched =>
        var d1 := d.(lib := Some(Complete(expected)));
        if io.writeMeta.Some? then (d1, Err("write meta failed: " + io.writeMeta.value))
        else (d1.(meta := Some(expected)), Ok(()))
  }

  /** `sync_release_asset` as written: when a download is needed, the old
      metadata file stays in place while the library is rewritten. */
  function SyncAsWritten(d: Disk, expected: Str, io: Io): (r: (Disk, Result<(), Str>))
    ensures !NeedsDownload(d, expected) ==> r == (d, Ok(()))
    ensures NeedsDownload(d, expected) ==> r.1 == Fetch(d, expected, io).1 && (r.1.Ok? <==> AllSucceed(io))
    ensures NeedsDownload(d, expected) && r.1.Err? ==> r.0.meta == d.meta
    ensures NeedsDownload(d, expected) && io.createDir.None? && io.download.CopyFailed? ==>
              r.0.lib == Some(Truncated)
    ensures NeedsDownload(d, expected)
            && (io.createDir.Some? || io.download.RequestFailed? || io.download.CreateFailed?) ==>
              r.0 == d
    ensures r.1.Ok? ==> r.0.lib == Some(Complete(expected)) || (r.0 == d && r.0.lib.Some?)
  {
    if NeedsDownload(d, expected) then Fetch(d, expected, io) else (d, Ok(()))
  }

  /** The disk can be trusted: whenever both files are there, the library
      is the complete download of the asset the metadata describes, so a
      skipped download never keeps a partial or stale library. */
  predicate Consistent(d: Disk) {
    d.lib.Some? && d.meta.Some? ==> d.lib.value == Complete(d.meta.value)
  }

  /** A failed copy when the library is missing but its metadata is current
      leaves a partial library beside matching metadata; the next run then
      skips the download and keeps the partial library. */
  lemma SyncAsWrittenTrustsPartialLibrary()
    ensures var d := Disk(None, Some("m"));
            var io := Io(None, CopyFailed("reset"), None);
            var after := SyncAsWritten(d, "m", io).0;
            Consistent(d) && !Consistent(after)
            && after.lib == Some(Truncated)
            && SyncAsWritten(after, "m", io) == (after, Ok(()))
  {
    var d := Disk(None, Some("m"));
    var io := Io(None, CopyFailed("reset"), None);
    assert SyncAsWritten(d, "m", io).0 == Disk(Some(Truncated), Some("m"));
  }

  /** On success from a trustworthy disk, the program's own sync leaves the
      complete current asset and its metadata. */
  lemma SyncAsWrittenSuccessHasCurrentLibrary(d: Disk, expected: Str, io: Io)
    requires Consistent(d)
    requires SyncAsWritten(d, expected, io).1.Ok?
    ensures SyncAsWritten(d, expected, io).0 == Disk(Some(Complete(expected)), Some(expected))
  {
  }

  /** After a successful run of the program's own sync, a second run for
      the same asset downloads nothing and changes nothing. */
  lemma SyncAsWrittenIdempotent(d: Disk, expected: Str, io: Io, io': Io)
    requires SyncAsWritten(d, expected, io).1.Ok?
    ensures var after := SyncAsWritten(d, expected, io).0;
            !NeedsDownload(after, expected) && SyncAsWritten(after, expected, io') == (after, Ok(()))
  {
  }

  /** `sync_release_asset` with the stale metadata removed before the
      library is rewritten, so the metadata is present only once the
      library it describes is complete. */
  function Sync(d: Disk, expected: Str, io: Io): (r: (Disk, Result<(), Str>))
    ensures !NeedsDownload(d, expected) ==> r == (d, Ok(()))
    ensures NeedsDownload(d, expected) ==> r.0.meta.None? || r.1.Ok?
    ensures NeedsDownload(d, expected) ==> r.1 == Fetch(d, expected, io).1 && (r.1.Ok? <==> AllSucceed(io))
  {
    if NeedsDownload(d, expected) then Fetch(d.(meta := None), expected, io) else (d, Ok(()))
  }

  /** Whatever fails along the way, syncing a trustworthy disk leaves a
      trustworthy disk. */
  lemma SyncKeepsConsistent(d: Disk, expected: Str, io: Io)
    requires Consistent(d)
    ensures Consistent(Sync(d, expected, io).0)
  {
  }

  /** On success the library is the complete current asset, whether or not
      anything was downloaded, provided the disk was trustworthy. */
  lemma SyncSuccessHasCurrentLibrary(d: Disk, expected: Str, io: Io)
    requires Consistent(d)
    requires Sync(d, expected, io).1.Ok?
    ensures Sync(d, expected, io).0.lib == Some(Complete(expected))
    ensures Sync(d, expected, io).0.meta == Some(expected)
  {
  }

  /** A second run for the same asset after a successful one downloads
      nothing and changes nothing, whatever its I/O would have done. */
  lemma SyncIdempotent(d: Disk, expected: Str, io: Io, io': Io)
    requires Sync(d, expected, io).1.Ok?
    ensures var after := Sync(d, expected, io).0;
            !NeedsDownload(after, expected) && Sync(after, expected, io') == (after, Ok(()))
  {
  }

  /** The correction changes only the metadata a failed download leaves
      behind: the result and the library agree with the program's own
      sync, and on success so does the whole disk. */
  lemma SyncMatchesAsWritten(d: Disk, expected: Str, io: Io)
    ensures Sync(d, expected, io).1 == SyncAsWritten(d, expected, io).1
    ensures Sync(d, expected, io).0.lib == SyncAsWritten(d, expected, io).0.lib
    ensures Sync(d, expected, io).1.Ok? ==> Sync(d, expected, io).0 == SyncAsWritten(d, expected, io).0
  {
  }

  // ------------------------------------------------------------- build

  /** What the build script ends with: linking against the library, or a
      panic with its message. */
  datatype Outcome = Link(disk: Disk) | Panic(message: Str)

  /** The panic message when the sync (or the asset lookup inside it)
      fails. */
  function SyncFailed(target: Str, libPath: Str, e: Str): Str {
    "Failed to sync static library for " + target + " at " + libPath + ": " + e
  }

  /** The panic message when the library is still absent after a
      successful sync. */
  function MissingLibrary(target: Str, libPath: Str): Str {
    "Missing static library: " + target + ". Expected " + libPath
    + ". Download did not produce the library."
  }

  /** The end of `main` once the sync has run: a sync error panics, a
      missing library panics, and otherwise the library is linked. */
  function Finish(target: Str, libPath: Str, sync: (Disk, Result<(), Str>)): Outcome {
    match sync.1
    case Err(e) => Panic(SyncFailed(target, libPath, e))
    case Ok(_) =>
      if sync.0.lib.None? then Panic(MissingLibrary(target, libPath))
      else Link(sync.0)
  }

  /** `main` from the asset lookup on, with the program's own sync. */
  function BuildAsWritten(target: Str, libPath: Str, json: Result<ReleaseJson, Str>, d: Disk, io: Io): (r: Outcome)
    ensures AssetInfo(json, target).Err? ==> r.Panic?
    ensures r.Link? ==> AssetInfo(json, target).Ok? && r.disk.lib.Some?
    ensures r.Link? && Consistent(d) ==>
              r.disk.lib == Some(Complete(ExpectedMeta(AssetInfo(json, target).value)))
    ensures AssetInfo(json, target).Err? ==> r == Panic(SyncFailed(target, libPath, AssetInfo(json, target).error))
    ensures AssetInfo(json, target).Ok? ==>
              var sync := SyncAsWritten(d, ExpectedMeta(AssetInfo(json, target).value), io);
              (sync.1.Err? ==> r == Panic(SyncFailed(target, libPath, sync.1.error)))
              && (sync.1.Ok? ==> r == Link(sync.0))
    ensures r.Link? <==> AssetInfo(json, target).Ok?
                         && SyncAsWritten(d, ExpectedMeta(AssetInfo(json, target).value), io).1.Ok?
  {
    match AssetInfo(json, target)
    case Err(e) => Finish(target, libPath, (d, Err(e)))
    case Ok(asset) =>
      var sync := SyncAsWritten(d, ExpectedMeta(asset), io);
      assert Consistent(d) && sync.1.Ok? ==> sync.0.lib == Some(Complete(ExpectedMeta(asset))) by {
        if Consistent(d) && sync.1.Ok? {
          SyncAsWrittenSuccessHasCurrentLibrary(d, ExpectedMeta(asset), io);
        }
      }
      Finish(target, libPath, sync)
  }

  /** `main` from the asset lookup on, with the corrected sync. */
  function Build(target: Str, libPath: Str, json: Result<ReleaseJson, Str>, d: Disk, io: Io): (r: Outcome)
    ensures AssetInfo(json, target).Err? ==> r.Panic?
    ensures r.Link? ==> AssetInfo(json, target).Ok? && r.disk.lib.Some?
    ensures r.Link? && Consistent(d) ==>
              r.disk.lib == Some(Complete(ExpectedMeta(AssetInfo(json, target).value)))
    ensures AssetInfo(json, target).Err? ==> r == Panic(SyncFailed(target, libPath, AssetInfo(json, target).error))
    ensures AssetInfo(json, target).Ok? ==>
              var sync := Sync(d, ExpectedMeta(AssetInfo(json, target).value), io);
              (sync.1.Err? ==> r == Panic(SyncFailed(target, libPath, sync.1.error)))
              && (sync.1.Ok? ==> r == Link(sync.0))
    ensures r.Link? <==> AssetInfo(json, target).Ok?
                         && Sync(d, ExpectedMeta(AssetInfo(json, target).value), io).1.Ok?
  {
    match AssetInfo(json, target)
    case Err(e) => Finish(target, libPath, (d, Err(e)))
    case Ok(asset) =>
      var sync := Sync(d, ExpectedMeta(asset), io);
      assert Consistent(d) && sync.1.Ok? ==> sync.0.lib == Some(Complete(ExpectedMeta(asset))) by {
        if Consistent(d) && sync.1.Ok? {
          SyncSuccessHasCurrentLibrary(d, ExpectedMeta(asset), io);
        }
      }
      Finish(target, libPath, sync)
  }

  /** The correction does not change how this build ends: same panic
      message or same linked disk. It only changes what a failed build
      leaves for the next one. */
  lemma {:induction false} BuildSameAsWritten(target: Str, libPath: Str, json: Result<ReleaseJson, Str>, d: Disk, io: Io)
    ensures Build(target, libPath, json, d, io) == BuildAsWritten(target, libPath, json, d, io)
  {
    if AssetInfo(json, target).Ok? {
      SyncMatchesAsWritten(d, ExpectedMeta(AssetInfo(json, target).value), io);
    }
  }

  /** After a successful sync the library always exists, so the
      missing-library panic is never reached. */
  lemma BuildNeverMissesLibrary(target: Str, libPath: Str, json: Result<ReleaseJson, Str>, d: Disk, io: Io)
    requires AssetInfo(json, target).Ok?
    requires Sync(d, ExpectedMeta(AssetInfo(json, target).value), io).1.Ok?
    ensures Build(target, libPath, json, d, io).Link?
  {
  }
}

=== FILE: backend_start.dfy ===
/** Starting the backend (`build_state`, `to_cstring`): the backend address
    derived from the configuration and the environment, validation of every
    string handed across the C boundary, the start record, and the
    resulting proxy state. The backend's start entry point is a function
    parameter returning an optional handle (null as `None`). */
module BackendStart {
  import opened Wrappers
  import opened Strings
  import opened AppConfig
  import EmbeddedServer
  import Proxy

  /** A string that can cross the C boundary: no interior NUL. */
  type CStr = s: Str | '\0' !in s

  /** The start record (`ManatanServerConfig`); `migratePath` is `None`
      where the record holds a null pointer, and flags are bytes. */
  datatype StartRecord = StartRecord(
    host: CStr,
    port: u16,
    javaRuntimeUrl: CStr,
    webviewEnabled: byte,
    aidokuIndexUrl: CStr,
    aidokuEnabled: byte,
    aidokuCachePath: CStr,
    dbPath: CStr,
    migratePath: Option<CStr>,
    trackerRemoteSearch: byte,
    trackerSearchTtlSeconds: i64,
    downloadsPath: CStr,
    localMangaPath: CStr,
    localAnimePath: CStr)

  /** The proxy's shared state (`AppState`): configuration, backend base
      URL and the owned backend handle. */
  datatype AppState = AppState(config: Config, backendUrl: Str, server: EmbeddedServer.Server)

  const BackendHostKey: Str := "MANATAN_BACKEND_HOST"
  const BackendPortKey: Str := "MANATAN_BACKEND_PORT"
  const StartFailed: Str := "manatan_server_start failed"

  /** The error text for a string holding a NUL. */
  function NulError(field: Str): Str {
    field + " contains NUL bytes"
  }

  /** `to_cstring`: fails exactly when the text holds a NUL, naming the
      field; otherwise passes the text through unchanged. */
  function ToCString(value: Str, field: Str): (r: Result<CStr, Str>)
    ensures r.Err? <==> '\0' in value
    ensures r.Err? ==> r.error == NulError(field)
    ensures r.Ok? ==> r.value == value
  {
    if '\0' in value then Err(NulError(field)) else Ok(value)
  }

  /** `u16::saturating_add(port, 1)`. */
  function SaturatingIncrement(port: u16): (r: u16)
    ensures r as int == if port as int + 1 > 0xFFFF then 0xFFFF else port as int + 1
  {
    if port == 0xFFFF then 0xFFFF else port + 1
  }

  /** The backend host: `MANATAN_BACKEND_HOST`, or `127.0.0.1`. */
  function BackendHost(env: Env): (r: Str)
    ensures BackendHostKey in env ==> r == env[BackendHostKey]
    ensures BackendHostKey !in env ==> r == "127.0.0.1"
  {
    EnvVar(env, BackendHostKey).GetOr("127.0.0.1")
  }

  /** The backend port: a parsable `MANATAN_BACKEND_PORT` wins; otherwise
      the listen port plus one, held at 65535. */
  function BackendPort(config: Config, env: Env): (r: u16)
    ensures BackendPortKey in env && ParseU16(env[BackendPortKey]).Some? ==>
              r == ParseU16(env[BackendPortKey]).value
    ensures !(BackendPortKey in env && ParseU16(env[BackendPortKey]).Some?) ==>
              r == SaturatingIncrement(config.port) && (r > config.port || r == config.port == 0xFFFF)
  {
    match EnvVar(env, BackendPortKey)
    case Some(v) => ParseU16(v).GetOr(SaturatingIncrement(config.port))
    case None => SaturatingIncrement(config.port)
  }

  /** Without an override the backend listens on the next port. */
  lemma BackendPortDefault(config: Config, env: Env)
    requires BackendPortKey !in env
    requires config.port < 0xFFFF
    ensures BackendPort(config, env) == config.port + 1
  {
  }

  /** The backend base URL, `http://host:port`. */
  function BackendUrl(host: Str, port: u16): (r: Str)
    ensures IsPrefix("http://", r)
    ensures RSplitOnce(r[7..], ':') == Some((host, Decimal(port)))
  {
    var hp := HostPort(host, port);
    assert ("http://" + hp)[7..] == hp;
    "http://" + hp
  }

  /** The WebSocket leg reaches the same host and port over `ws://`. */
  lemma BackendWsUrlOfBackendUrl(host: Str, port: u16)
    ensures Proxy.BackendWsUrl(BackendUrl(host, port)) == "ws://" + HostPort(host, port)
  {
    Proxy.WsUrlOfHttp(HostPort(host, port));
  }

  /** A flag as the byte the record carries. */
  function FlagByte(b: bool): (r: byte)
    ensures r == 0 || r == 1
    ensures r == 1 <==> b
  {
    if b then 1 else 0
  }

  /** The strings `build_state` validates, labelled with the names its
      errors use, in validation order; the migration source is included
      only when it is set and non-empty. */
  function CheckedFields(config: Config, env: Env): (r: seq<(Str, Str)>)
    ensures |r| == 8 || |r| == 9
    ensures |r| == 9 <==> config.migratePath.Some? && config.migratePath.value != []
    ensures r[0].1 == BackendHost(env) && r[1].1 == config.javaRuntimeUrl
    ensures r[2].1 == config.aidokuIndexUrl && r[3].1 == config.aidokuCachePath
    ensures r[4].1 == config.dbPath && r[5].1 == config.downloadsPath
    ensures r[6].1 == config.localMangaPath && r[7].1 == config.localAnimePath
    ensures |r| == 9 ==> r[8].1 == config.migratePath.value
    ensures r[0].0 == "backend_host" && r[1].0 == "java_runtime_url"
    ensures r[2].0 == "aidoku_index_url" && r[3].0 == "aidoku_cache_path"
    ensures r[4].0 == "db_path" && r[5].0 == "downloads_path"
    ensures r[6].0 == "local_manga_path" && r[7].0 == "local_anime_path"
    ensures |r| == 9 ==> r[8].0 == "migrate_path"
  {
    [("backend_host", BackendHost(env)),
     ("java_runtime_url", config.javaRuntimeUrl),
     ("aidoku_index_url", config.aidokuIndexUrl),
     ("aidoku_cache_path", config.aidokuCachePath),
     ("db_path", config.dbPath),
     ("downloads_path", config.downloadsPath),
     ("local_manga_path", config.localMangaPath),
     ("local_anime_path", config.localAnimePath)]
    + (match config.migratePath
       case Some(v) => if v != [] then [("migrate_path", v)] else []
       case None => [])
  }

  /** `to_cstring` applied to each field in turn, stopping at the first
      failure; on success, the converted strings in the same order. */
  function ValidateAll(fields: seq<(Str, Str)>): (r: Result<seq<CStr>, Str>)
    ensures r.Ok? ==> |r.value| == |fields| && forall i :: 0 <= i < |fields| ==> r.value[i] == fields[i].1
    decreases |fields|
  {
    if fields == [] then Ok([])
    else
      var c :- ToCString(fields[0].1, fields[0].0);
      var rest :- ValidateAll(fields[1..]);
      Ok([c] + rest)
  }

  /** Everything `build_state` does before calling start: validate the
      strings in their fixed order, stopping at the first failure, then
      assemble the record. */
  function PrepareStart(config: Config, env: Env): (r: Result<StartRecord, Str>)
    ensures r.Ok? ==> r.value.host == BackendHost(env) && r.value.port == BackendPort(config, env)
  {
    var fields := CheckedFields(config, env);
    var vs :- ValidateAll(fields);
    Ok(StartRecord(
      host := vs[0],
      port := BackendPort(config, env),
      javaRuntimeUrl := vs[1],
      webviewEnabled := FlagByte(config.webviewEnabled),
      aidokuIndexUrl := vs[2],
      aidokuEnabled := FlagByte(config.aidokuEnabled),
      aidokuCachePath := vs[3],
      dbPath := vs[4],
      migratePath := if |vs| == 9 then Some(vs[8]) else None,
      trackerRemoteSearch := FlagByte(config.trackerRemoteSearch),
      trackerSearchTtlSeconds := config.trackerSearchTtlSeconds,
      downloadsPath := vs[5],
      localMangaPath := vs[6],
      localAnimePath := vs[7]))
  }

  /** The name of the first field holding a NUL, if any. */
  function FirstNul(fields: seq<(Str, Str)>): (r: Option<Str>)
    ensures r.None? <==> forall i :: 0 <= i < |fields| ==> '\0' !in fields[i].1
    ensures r.Some? ==> exists i :: 0 <= i < |fields| && fields[i].0 == r.value && '\0' in fields[i].1
                                    && forall j :: 0 <= j < i ==> '\0' !in fields[j].1
    decreases |fields|
  {
    if fields == [] then None
    else if '\0' in fields[0].1 then Some(fields[0].0)
    else
      var r := FirstNul(fields[1..]);
      assert forall i :: 1 <= i < |fields| ==> fields[i] == fields[1..][i - 1];
      assert r.Some? ==> exists i :: 0 <= i < |fields| && fields[i].0 == r.value && '\0' in fields[i].1
                                    && forall j :: 0 <= j < i ==> '\0' !in fields[j].1 by {
        if r.Some? {
          var i :| 0 <= i < |fields[1..]| && fields[1..][i].0 == r.value && '\0' in fields[1..][i].1
                   && forall j :: 0 <= j < i ==> '\0' !in fields[1..][j].1;
          assert fields[i + 1] == fields[1..][i];
        }
      }
      r
  }

  /** Validating a list of fields fails exactly when one holds a NUL, and
      the error names the first such field. */
  lemma {:induction false} ValidateAllReportsFirstNul(fields: seq<(Str, Str)>)
    ensures ValidateAll(fields).Err? <==> FirstNul(fields).Some?
    ensures ValidateAll(fields).Err? ==> ValidateAll(fields).error == NulError(FirstNul(fields).value)
    decreases |fields|
  {
    if fields != [] && '\0' !in fields[0].1 {
      ValidateAllReportsFirstNul(fields[1..]);
    }
  }

  /** Start preparation fails exactly when some checked field holds a NUL,
      and then reports the first such field in the fixed order. */
  lemma PrepareReportsFirstNul(config: Config, env: Env)
    ensures PrepareStart(config, env).Err? <==> FirstNul(CheckedFields(config, env)).Some?
    ensures PrepareStart(config, env).Err? ==>
              PrepareStart(config, env).error == NulError(FirstNul(CheckedFields(config, env)).value)
  {
    ValidateAllReportsFirstNul(CheckedFields(config, env));
  }

  /** Once validation passes, the record carries the backend host (not the
      listen host), the backend port, the flags as 1/0, the TTL unchanged,
      and every string as configured. */
  lemma RecordCarriesConfig(config: Config, env: Env)
    requires PrepareStart(config, env).Ok?
    ensures var rec := PrepareStart(config, env).value;
      && rec.host == BackendHost(env) && rec.port == BackendPort(config, env)
      && (rec.webviewEnabled == 1 <==> config.webviewEnabled)
      && (rec.aidokuEnabled == 1 <==> config.aidokuEnabled)
      && (rec.trackerRemoteSearch == 1 <==> config.trackerRemoteSearch)
      && rec.trackerSearchTtlSeconds == config.trackerSearchTtlSeconds
      && rec.javaRuntimeUrl == config.javaRuntimeUrl && rec.aidokuIndexUrl == config.aidokuIndexUrl
      && rec.aidokuCachePath == config.aidokuCachePath && rec.dbPath == config.dbPath
      && rec.downloadsPath == config.downloadsPath && rec.localMangaPath == config.localMangaPath
      && rec.localAnimePath == config.localAnimePath
      && (rec.migratePath.Some? <==> config.migratePath.Some? && config.migratePath.value != [])
      && (rec.migratePath.Some? ==> rec.migratePath.value == config.migratePath.value)
  {
  }

  /** `build_state`: validate and assemble, call start, and wrap a non-null
      handle in the proxy state; a null handle is a start failure. */
  function BuildState(config: Config, env: Env, start: StartRecord -> Option<EmbeddedServer.HandleId>)
    : (r: Result<AppState, Str>)
    ensures PrepareStart(config, env).Err? ==> r == Err(PrepareStart(config, env).error)
    ensures PrepareStart(config, env).Ok? && start(PrepareStart(config, env).value).None? ==> r == Err(StartFailed)
    ensures PrepareStart(config, env).Ok? && start(PrepareStart(config, env).value).Some? ==>
              r.Ok? && r.value.server == EmbeddedServer.Wrap(start(PrepareStart(config, env).value).value)
    ensures r.Ok? ==> r.value.backendUrl == BackendUrl(BackendHost(env), BackendPort(config, env))
                      && r.value.config == config
                      && r.value.server.handle.Live? && r.value.server.stopped == []
  {
    var rec :- PrepareStart(config, env);
    match start(rec)
    case None => Err(StartFailed)
    case Some(h) => Ok(AppState(config, BackendUrl(BackendHost(env), BackendPort(config, env)), EmbeddedServer.Wrap(h)))
  }

  /** A validation failure never reaches start: the outcome does not depend
      on what start would do. */
  lemma ValidationFailureSkipsStart(config: Config, env: Env,
                                    start1: StartRecord -> Option<EmbeddedServer.HandleId>,
                                    start2: StartRecord -> Option<EmbeddedServer.HandleId>)
    requires PrepareStart(config, env).Err?
    ensures BuildState(config, env, start1) == BuildState(config, env, start2)
  {
  }

  /** A state as `BuildState` returns it (a live handle, nothing stopped
      yet) has its handle stopped exactly once when the state is torn
      down, however many times teardown runs. */
  lemma StartedStateStopsOnce(st: AppState, n: nat)
    requires st.server.handle.Live? && st.server.stopped == []
    requires n >= 1
    ensures Count(EmbeddedServer.DropN(st.server, n).stopped, st.server.handle.id) == 1
  {
    assert st.server == EmbeddedServer.Wrap(st.server.handle.id);
    EmbeddedServer.StartedHandleStoppedExactlyOnce(st.server.handle.id, n);
  }
}

=== FILE: config.dfy ===
/** The environment-driven configuration (`Config::from_env`, `env_bool`,
    `Config::addr`). The process environment is a map from variable name to
    value; paths are `/`-separated. */
module AppConfig {
  import opened Wrappers
  import opened Strings

  type Env = map<Str, Str>

  /** The configuration record handed to the rest of the program. */
  datatype Config = Config(
    host: Str,
    port: u16,
    javaRuntimeUrl: Str,
    webviewEnabled: bool,
    aidokuIndexUrl: Str,
    aidokuEnabled: bool,
    aidokuCachePath: Str,
    dbPath: Str,
    migratePath: Option<Str>,
    trackerRemoteSearch: bool,
    trackerSearchTtlSeconds: i64,
    downloadsPath: Str,
    localMangaPath: Str,
    localAnimePath: Str)

  const HostKey: Str := "MANATAN_HOST"
  const PortKey: Str := "MANATAN_PORT"
  const JavaUrlKey: Str := "MANATAN_JAVA_URL"
  const WebviewKey: Str := "MANATAN_WEBVIEW_ENABLED"
  const DbPathKey: Str := "MANATAN_DB_PATH"
  const AidokuIndexKey: Str := "MANATAN_AIDOKU_INDEX"
  const AidokuEnabledKey: Str := "MANATAN_AIDOKU_ENABLED"
  const MigratePathKey: Str := "MANATAN_MIGRATE_PATH"
  const TrackerSearchKey: Str := "MANATAN_TRACKER_REMOTE_SEARCH"
  const TrackerTtlKey: Str := "MANATAN_TRACKER_SEARCH_TTL_SECONDS"
  const DownloadsKey: Str := "MANATAN_DOWNLOADS_PATH"
  const LocalMangaKey: Str := "MANATAN_LOCAL_MANGA_PATH"
  const LocalAnimeKey: Str := "MANATAN_LOCAL_ANIME_PATH"
  const AidokuCacheKey: Str := "MANATAN_AIDOKU_CACHE"

  const DefaultHost: Str := "127.0.0.1"
  const DefaultPort: u16 := 4568
  const DefaultJavaUrl: Str := "http://127.0.0.1:4566"
  const DefaultDbPath: Str := "manatan.sqlite"
  const DefaultTtl: i64 := 3600

  /** `std::env::var(key).ok()`. */
  function EnvVar(env: Env, key: Str): Option<Str> {
    if key in env then Some(env[key]) else None
  }

  const TrueWords: set<Str> := {"1", "true", "yes", "on"}
  const FalseWords: set<Str> := {"0", "false", "no", "off"}

  /** `env_bool`: a set variable whose lower-cased value is one of the true
      words is true, one of the false words is false; unset or anything
      else gives the default. */
  function EnvBool(env: Env, key: Str, default: bool): (r: bool)
    ensures key in env && Lower(env[key]) in TrueWords ==> r
    ensures key in env && Lower(env[key]) in FalseWords ==> !r
    ensures key !in env || Lower(env[key]) !in TrueWords + FalseWords ==> r == default
  {
    match EnvVar(env, key)
    case Some(v) =>
      var w := Lower(v);
      if w in TrueWords then true else if w in FalseWords then false else default
    case None => default
  }

  /** The boolean reading ignores ASCII case: `TRUE`, `True` and `true`
      read alike. */
  lemma EnvBoolIgnoresCase(env: Env, key: Str, v: Str, v': Str, default: bool)
    requires EqIgnoreAsciiCase(v, v')
    ensures EnvBool(env[key := v], key, default) == EnvBool(env[key := v'], key, default)
  {
    EqIgnoreAsciiCaseIffLowerEqual(v, v');
  }

  /** The parent directory of the database path, `.` when it has none:
      the text before the last `/`, `/` for a file directly under the
      root, and `.` for a bare name or the root itself. */
  function DbParent(p: Str): (r: Str)
    ensures '/' !in p ==> r == "."
    ensures '/' in p && p != "/" && r != "/" ==> IsPrefix(r + ['/'], p) && '/' !in p[|r| + 1..]
    ensures |p| > 1 && p[0] == '/' && '/' !in p[1..] ==> r == "/"
    ensures r == "/" ==> |p| > 1 && p[0] == '/'
    ensures p == "/" ==> r == "."
  {
    match RSplitOnce(p, '/')
    case None => "."
    case Some(parts) =>
      if parts.0 == [] then (if |p| == 1 then "." else "/")
      else
        assert p[..|parts.0| + 1] == parts.0 + ['/'];
        assert p[|parts.0| + 1..] == parts.1;
        assert p[1..][|parts.0| - 1] == p[|parts.0|] == '/';
        parts.0
  }

  /** `PathBuf::join` of a relative name. */
  function JoinPath(base: Str, name: Str): (r: Str)
    ensures |r| >= |name| && r[|r| - |name|..] == name
    ensures base == [] ==> r == name
    ensures base != [] ==> |r| > |name| && IsPrefix(base, r) && r[|r| - |name| - 1] == '/'
    ensures base != [] ==> |r| == |base| + |name| + (if base[|base| - 1] == '/' then 0 else 1)
  {
    if base == [] then name
    else if base[|base| - 1] == '/' then base + name
    else base + ['/'] + name
  }

  /** The parent of `dir/file` is `dir`. */
  lemma DbParentOfFile(dir: Str, file: Str)
    requires dir != [] && '/' !in file
    ensures DbParent(dir + ['/'] + file) == dir
  {
    RSplitOnceOfJoin(dir, file, '/');
  }

  /** The database path: the variable, or `manatan.sqlite`. */
  function DbPathOf(env: Env): (r: Str)
    ensures DbPathKey in env ==> r == env[DbPathKey]
    ensures DbPathKey !in env ==> r == DefaultDbPath
  {
    EnvVar(env, DbPathKey).GetOr(DefaultDbPath)
  }

  /** A data directory: its variable, or the entry `name` under the
      database's parent directory. */
  function DataDir(env: Env, key: Str, name: Str): (r: Str)
    ensures key in env ==> r == env[key]
    ensures key !in env ==> r == JoinPath(DbParent(DbPathOf(env)), name)
  {
    EnvVar(env, key).GetOr(JoinPath(DbParent(DbPathOf(env)), name))
  }

  /** `Config::from_env`. */
  function FromEnv(env: Env): (c: Config)
    ensures PortKey !in env || ParseU16(env[PortKey]).None? ==> c.port == DefaultPort
    ensures TrackerTtlKey !in env || ParseI64(env[TrackerTtlKey]).None? ==> c.trackerSearchTtlSeconds == DefaultTtl
    ensures HostKey !in env ==> c.host == DefaultHost
    ensures JavaUrlKey !in env ==> c.javaRuntimeUrl == DefaultJavaUrl
    ensures DbPathKey !in env ==> c.dbPath == DefaultDbPath
    ensures AidokuIndexKey !in env ==> c.aidokuIndexUrl == []
    ensures PortKey in env && ParseU16(env[PortKey]).Some? ==> c.port == ParseU16(env[PortKey]).value
    ensures TrackerTtlKey in env && ParseI64(env[TrackerTtlKey]).Some? ==>
              c.trackerSearchTtlSeconds == ParseI64(env[TrackerTtlKey]).value
    ensures c.webviewEnabled == EnvBool(env, WebviewKey, false)
    ensures c.aidokuEnabled == EnvBool(env, AidokuEnabledKey, true)
    ensures c.trackerRemoteSearch == EnvBool(env, TrackerSearchKey, true)
    ensures DbPathKey in env ==> c.dbPath == env[DbPathKey]
  {
    var port := match EnvVar(env, PortKey)
      case Some(v) => ParseU16(v).GetOr(DefaultPort)
      case None => DefaultPort;
    var ttl := match EnvVar(env, TrackerTtlKey)
      case Some(v) => ParseI64(v).GetOr(DefaultTtl)
      case None => DefaultTtl;
    var dbPath := DbPathOf(env);
    Config(
      host := EnvVar(env, HostKey).GetOr(DefaultHost),
      port := port,
      javaRuntimeUrl := EnvVar(env, JavaUrlKey).GetOr(DefaultJavaUrl),
      webviewEnabled := EnvBool(env, WebviewKey, false),
      aidokuIndexUrl := EnvVar(env, AidokuIndexKey).GetOr([]),
      aidokuEnabled := EnvBool(env, AidokuEnabledKey, true),
      aidokuCachePath := DataDir(env, AidokuCacheKey, "aidoku"),
      dbPath := dbPath,
      migratePath := EnvVar(env, MigratePathKey),
      trackerRemoteSearch := EnvBool(env, TrackerSearchKey, true),
      trackerSearchTtlSeconds := ttl,
      downloadsPath := DataDir(env, DownloadsKey, "downloads"),
      localMangaPath := DataDir(env, LocalMangaKey, "local-manga"),
      localAnimePath := DataDir(env, LocalAnimeKey, "local-anime"))
  }

  /** The variables `from_env` reads. */
  const Keys: set<Str> := {HostKey, PortKey, JavaUrlKey, WebviewKey, DbPathKey, AidokuIndexKey,
                           AidokuEnabledKey, MigratePathKey, TrackerSearchKey, TrackerTtlKey,
                           DownloadsKey, LocalMangaKey, LocalAnimeKey, AidokuCacheKey}

  /** With none of its variables set, every field takes its documented
      default and the data directories sit under the working directory. */
  lemma FromEnvDefaults(env: Env)
    requires forall k :: k in Keys ==> k !in env
    ensures FromEnv(env) == Config(
      "127.0.0.1", 4568, "http://127.0.0.1:4566", false, "", true,
      "./aidoku", "manatan.sqlite", None, true, 3600,
      "./downloads", "./local-manga", "./local-anime")
  {
    assert HostKey in Keys && PortKey in Keys && JavaUrlKey in Keys && WebviewKey in Keys;
    assert DbPathKey in Keys && AidokuIndexKey in Keys && AidokuEnabledKey in Keys;
    assert MigratePathKey in Keys && TrackerSearchKey in Keys && TrackerTtlKey in Keys;
    assert DownloadsKey in Keys && LocalMangaKey in Keys && LocalAnimeKey in Keys && AidokuCacheKey in Keys;
    ScalarDefaults(env);
    PathDefaults(env);
  }

  lemma ScalarDefaults(env: Env)
    requires HostKey !in env && PortKey !in env && JavaUrlKey !in env && WebviewKey !in env
    requires DbPathKey !in env && AidokuIndexKey !in env && AidokuEnabledKey !in env
    requires MigratePathKey !in env && TrackerSearchKey !in env && TrackerTtlKey !in env
    ensures var c := FromEnv(env);
            c.host == DefaultHost && c.port == DefaultPort && c.javaRuntimeUrl == DefaultJavaUrl
            && !c.webviewEnabled && c.aidokuIndexUrl == [] && c.aidokuEnabled
            && c.dbPath == DefaultDbPath && c.migratePath.None?
            && c.trackerRemoteSearch && c.trackerSearchTtlSeconds == DefaultTtl
  {
  }

  lemma PathDefaults(env: Env)
    requires DbPathKey !in env
    requires DownloadsKey !in env && LocalMangaKey !in env && LocalAnimeKey !in env && AidokuCacheKey !in env
    ensures var c := FromEnv(env);
            c.aidokuCachePath == "./aidoku" && c.downloadsPath == "./downloads"
            && c.localMangaPath == "./local-manga" && c.localAnimePath == "./local-anime"
  {
    FromEnvDerivedPaths(env);
    DefaultDbParent();
    DirsUnderDot();
  }

  /** The four data directory names joined under the working directory. */
  lemma DirsUnderDot()
    ensures JoinPath(".", "aidoku") == "./aidoku" && JoinPath(".", "downloads") == "./downloads"
    ensures JoinPath(".", "local-manga") == "./local-manga" && JoinPath(".", "local-anime") == "./local-anime"
  {
    assert "." + ['/'] + "aidoku" == "./aidoku";
    assert "." + ['/'] + "downloads" == "./downloads";
    assert "." + ['/'] + "local-manga" == "./local-manga";
    assert "." + ['/'] + "local-anime" == "./local-anime";
  }

  /** The default database file lies in the working directory. */
  lemma DefaultDbParent()
    ensures DbParent(DefaultDbPath) == "."
  {
    assert '/' !in DefaultDbPath;
  }

  /** A set variable always wins over the default, for every string field,
      every path and the migration source. */
  lemma FromEnvOverrides(env: Env)
    ensures HostKey in env ==> FromEnv(env).host == env[HostKey]
    ensures JavaUrlKey in env ==> FromEnv(env).javaRuntimeUrl == env[JavaUrlKey]
    ensures DbPathKey in env ==> FromEnv(env).dbPath == env[DbPathKey]
    ensures AidokuIndexKey in env ==> FromEnv(env).aidokuIndexUrl == env[AidokuIndexKey]
    ensures DownloadsKey in env ==> FromEnv(env).downloadsPath == env[DownloadsKey]
    ensures LocalMangaKey in env ==> FromEnv(env).localMangaPath == env[LocalMangaKey]
    ensures LocalAnimeKey in env ==> FromEnv(env).localAnimePath == env[LocalAnimeKey]
    ensures AidokuCacheKey in env ==> FromEnv(env).aidokuCachePath == env[AidokuCacheKey]
    ensures MigratePathKey in env <==> FromEnv(env).migratePath.Some?
    ensures MigratePathKey in env ==> FromEnv(env).migratePath.value == env[MigratePathKey]
  {
  }

  /** Every unset data directory is its entry under the parent directory
      of the database path in use. */
  lemma FromEnvDerivedPaths(env: Env)
    ensures DownloadsKey !in env ==>
              FromEnv(env).downloadsPath == JoinPath(DbParent(FromEnv(env).dbPath), "downloads")
    ensures LocalMangaKey !in env ==>
              FromEnv(env).localMangaPath == JoinPath(DbParent(FromEnv(env).dbPath), "local-manga")
    ensures LocalAnimeKey !in env ==>
              FromEnv(env).localAnimePath == JoinPath(DbParent(FromEnv(env).dbPath), "local-anime")
    ensures AidokuCacheKey !in env ==>
              FromEnv(env).aidokuCachePath == JoinPath(DbParent(FromEnv(env).dbPath), "aidoku")
  {
  }

  /** A database at `dir/file` has `dir` as its parent, so the data
      directories default to `dir/downloads` and so on. */
  lemma DataDirBesideDb(dir: Str, file: Str, name: Str)
    requires dir != [] && dir[|dir| - 1] != '/' && '/' !in file
    ensures JoinPath(DbParent(dir + ['/'] + file), name) == dir + "/" + name
  {
    DbParentOfFile(dir, file);
  }

  /** A port given in decimal is the port used. */
  lemma FromEnvPort(env: Env, p: u16)
    requires PortKey in env && env[PortKey] == Decimal(p)
    ensures FromEnv(env).port == p
  {
    ParseU16OfDecimal(p);
  }

  /** `Config::addr`: host, a colon, and the port in decimal. The text
      after the last colon is the port and the text before is the host, so
      a resolver that splits at the last colon recovers both, even for an
      IPv6 host. */
  function Addr(c: Config): (r: Str)
    ensures RSplitOnce(r, ':') == Some((c.host, Decimal(c.port)))
    ensures ParseU16(RSplitOnce(r, ':').value.1) == Some(c.port)
  {
    HostPort(c.host, c.port)
  }

  /** `host:port` with the port in decimal. */
  function HostPort(host: Str, port: u16): (r: Str)
    ensures RSplitOnce(r, ':') == Some((host, Decimal(port)))
    ensures ParseU16(RSplitOnce(r, ':').value.1) == Some(port)
  {
    var d := Decimal(port);
    assert ':' !in d by {
      forall i | 0 <= i < |d| ensures d[i] != ':' {
        assert IsDigit(d[i]);
      }
    }
    RSplitOnceOfJoin(host, d, ':');
    ParseU16OfDecimal(port);
    host + [':'] + d
  }
}

=== FILE: embedded_server.dfy ===
/** Ownership of the backend handle (`EmbeddedServer` and its `Drop`). The
    handle is either null or a live handle returned by the backend's start
    call; every stop call issued is recorded, in order, so that "stop at
    most once per handle" is a statement about the record. */
module EmbeddedServer {
  import opened Strings

  /** An opaque backend handle; only its identity matters. */
  type HandleId = nat

  datatype Handle = Null | Live(id: HandleId)

  /** The owning wrapper together with the stop calls issued so far. */
  datatype Server = Server(handle: Handle, stopped: seq<HandleId>)

  /** A freshly wrapped handle: nothing stopped yet. */
  function Wrap(h: HandleId): Server {
    Server(Live(h), [])
  }

  /** `Drop::drop`: a non-null handle is stopped and then nulled; a null
      one issues nothing. Afterwards the handle is always null. */
  function Drop(s: Server): (r: Server)
    ensures r.handle.Null?
    ensures |r.stopped| == |s.stopped| + (if s.handle.Live? then 1 else 0)
    ensures IsPrefix(s.stopped, r.stopped)
    ensures s.handle.Live? ==> r.stopped[|s.stopped|] == s.handle.id
  {
    match s.handle
    case Live(id) => Server(Null, s.stopped + [id])
    case Null => s
  }

  /** Dropping twice is dropping once: the second drop issues no stop. */
  lemma DropIdempotent(s: Server)
    ensures Drop(Drop(s)) == Drop(s)
  {
  }

  /** `n` drops in a row. */
  function DropN(s: Server, n: nat): Server
    decreases n
  {
    if n == 0 then s else DropN(Drop(s), n - 1)
  }

  /** However many times a wrapper is dropped, at most one stop is issued,
      and it is for the handle it held. */
  lemma {:induction false} DropManyStopsOnce(s: Server, n: nat)
    requires n >= 1
    ensures DropN(s, n).handle.Null?
    ensures DropN(s, n).stopped == s.stopped + (if s.handle.Live? then [s.handle.id] else [])
    decreases n
  {
    if n > 1 {
      DropManyStopsOnce(Drop(s), n - 1);
    }
  }

  /** A started handle, dropped any positive number of times, is stopped
      exactly once. */
  lemma {:induction false} StartedHandleStoppedExactlyOnce(h: HandleId, n: nat)
    requires n >= 1
    ensures Count(DropN(Wrap(h), n).stopped, h) == 1
  {
    DropManyStopsOnce(Wrap(h), n);
    assert DropN(Wrap(h), n).stopped == [h];
  }

  /** Ownership invariant: no handle was stopped twice, and a live handle
      has not been stopped yet. */
  predicate Owned(s: Server) {
    (forall i, j :: 0 <= i < j < |s.stopped| ==> s.stopped[i] != s.stopped[j])
    && (s.handle.Live? ==> s.handle.id !in s.stopped)
  }

  /** Dropping keeps the ownership invariant, so no handle is ever stopped
      twice along any sequence of drops. */
  lemma DropKeepsOwned(s: Server)
    requires Owned(s)
    ensures Owned(Drop(s))
  {
    if s.handle.Live? {
      var r := Drop(s);
      forall i, j | 0 <= i < j < |r.stopped| ensures r.stopped[i] != r.stopped[j] {
        if j == |s.stopped| {
          assert r.stopped[i] == s.stopped[i];
        }
      }
    }
  }

  lemma WrapIsOwned(h: HandleId)
    ensures Owned(Wrap(h))
  {
  }
}

=== FILE: proxy.dfy ===
/** The request-level logic of the proxy (`proxy_handler`, `handle_socket`,
    `proxy_request`, `backend_ws_url`): upgrade detection, subprotocol
    parsing, URL rewriting, the two header filters and the 502 mapping.
    Sockets, streaming and the HTTP client are replaced by values and by a
    `send` function standing for the backend round trip. */
module Proxy {
  import opened Wrappers
  import opened Strings

  /** One header line. Names are lower-case, as `HeaderMap` stores them. */
  datatype Header = Header(name: Str, value: Str)

  /** A header map in its iteration order. */
  type Headers = seq<Header>

  /** `i` is the position of the first header called `name`. */
  predicate FirstWithName(h: Headers, name: Str, i: int) {
    0 <= i < |h| && h[i].name == name && forall j :: 0 <= j < i ==> h[j].name != name
  }

  lemma FirstWithNameUnique(h: Headers, name: Str, i: int, k: int)
    requires FirstWithName(h, name, i) && FirstWithName(h, name, k)
    ensures i == k
  {
  }

  /** `HeaderMap::get`: the value of the first header with that name. */
  function Get(h: Headers, name: Str): (r: Option<Str>)
    ensures r.None? <==> forall i :: 0 <= i < |h| ==> h[i].name != name
    ensures r.Some? ==> exists i :: FirstWithName(h, name, i) && h[i].value == r.value
    decreases |h|
  {
    if h == [] then None
    else if h[0].name == name then
      assert FirstWithName(h, name, 0);
      Some(h[0].value)
    else
      var r := Get(h[1..], name);
      assert r.Some? ==> exists i :: FirstWithName(h, name, i) && h[i].value == r.value by {
        if r.Some? {
          var i :| FirstWithName(h[1..], name, i) && h[1..][i].value == r.value;
          assert FirstWithName(h, name, i + 1);
        }
      }
      assert forall i :: 1 <= i < |h| ==> h[i] == h[1..][i - 1];
      r
  }

  /** `HeaderValue::to_str` succeeds: only visible ASCII and tab. */
  predicate VisibleAscii(v: Str) {
    forall i :: 0 <= i < |v| ==> (' ' <= v[i] <= '~') || v[i] == '\t'
  }

  const UpgradeHeader: Str := "upgrade"
  const ProtocolHeader: Str := "sec-websocket-protocol"

  // ------------------------------------------------------- upgrade detection

  /** A request is a WebSocket upgrade iff its first `upgrade` header is
      readable text equal to `websocket` up to ASCII case
      (app.rs `proxy_handler`, the `is_ws` test). */
  function IsWebSocketRequest(h: Headers): (r: bool)
    ensures r <==> exists i :: FirstWithName(h, UpgradeHeader, i)
                               && VisibleAscii(h[i].value) && Lower(h[i].value) == "websocket"
  {
    assert Lower("websocket") == "websocket";
    match Get(h, UpgradeHeader)
    case Some(v) =>
      EqIgnoreAsciiCaseIffLowerEqual(v, "websocket");
      var i :| FirstWithName(h, UpgradeHeader, i) && h[i].value == v;
      assert forall k :: FirstWithName(h, UpgradeHeader, k) ==> k == i by {
        forall k | FirstWithName(h, UpgradeHeader, k) ensures k == i {
          FirstWithNameUnique(h, UpgradeHeader, i, k);
        }
      }
      VisibleAscii(v) && EqIgnoreAsciiCase(v, "websocket")
    case None => false
  }

  /** Any spelling of `websocket` in the upgrade header is recognised. */
  lemma UpgradeIgnoresCase(v: Str)
    requires VisibleAscii(v) && EqIgnoreAsciiCase(v, "websocket")
    ensures IsWebSocketRequest([Header(UpgradeHeader, v)])
  {
    EqIgnoreAsciiCaseIffLowerEqual(v, "websocket");
    assert Lower("websocket") == "websocket";
    assert FirstWithName([Header(UpgradeHeader, v)], UpgradeHeader, 0);
  }

  // ------------------------------------------------------- subprotocols

  /** Every piece trimmed, in order. */
  function TrimAll(parts: seq<Str>): (r: seq<Str>)
    ensures |r| == |parts|
    ensures forall i :: 0 <= i < |parts| ==> r[i] == Trim(parts[i])
  {
    seq(|parts|, i requires 0 <= i < |parts| => Trim(parts[i]))
  }

  /** A character of a trimmed text is a character of the original. */
  lemma TrimKeeps(s: Str, c: char)
    requires c !in s
    ensures c !in Trim(s)
  {
    var r := Trim(s);
    var lo := |s| - |TrimStart(s)|;
    forall k | 0 <= k < |r| ensures r[k] != c {
      assert r[k] == s[lo + k];
    }
  }

  /** The requested subprotocols: the readable `sec-websocket-protocol`
      value split at every comma, each piece trimmed; none when the header
      is missing or unreadable. */
  function Subprotocols(h: Headers): (r: seq<Str>)
    ensures Get(h, ProtocolHeader).None? ==> r == []
    ensures Get(h, ProtocolHeader).Some? && !VisibleAscii(Get(h, ProtocolHeader).value) ==> r == []
    ensures Get(h, ProtocolHeader).Some? && VisibleAscii(Get(h, ProtocolHeader).value) ==>
              |r| == Count(Get(h, ProtocolHeader).value, ',') + 1
    ensures forall i :: 0 <= i < |r| ==> IsTrimmed(r[i]) && ',' !in r[i]
  {
    match Get(h, ProtocolHeader)
    case Some(v) =>
      if VisibleAscii(v) then
        var parts := Split(v, ',');
        assert forall i :: 0 <= i < |parts| ==> ',' !in Trim(parts[i]) by {
          forall i | 0 <= i < |parts| ensures ',' !in Trim(parts[i]) {
            TrimKeeps(parts[i], ',');
          }
        }
        TrimAll(parts)
      else []
    case None => []
  }

  /** A header joining comma-free pieces with commas yields those pieces,
      each trimmed. */
  lemma SubprotocolsOfParts(h: Headers, parts: seq<Str>)
    requires |parts| >= 1
    requires forall i :: 0 <= i < |parts| ==> ',' !in parts[i]
    requires Get(h, ProtocolHeader) == Some(Join(parts, ','))
    requires VisibleAscii(Join(parts, ','))
    ensures Subprotocols(h) == TrimAll(parts)
  {
    SplitJoin(parts, ',');
  }

  /** A header listing trimmed, comma-free protocols separated by commas
      yields exactly that list. */
  lemma SubprotocolsOfJoin(h: Headers, ps: seq<Str>)
    requires |ps| >= 1
    requires forall i :: 0 <= i < |ps| ==> IsTrimmed(ps[i]) && ',' !in ps[i]
    requires Get(h, ProtocolHeader) == Some(Join(ps, ','))
    requires VisibleAscii(Join(ps, ','))
    ensures Subprotocols(h) == ps
  {
    SubprotocolsOfParts(h, ps);
    forall i | 0 <= i < |ps| ensures Trim(ps[i]) == ps[i] {
      TrimOfTrimmed(ps[i]);
    }
  }

  // ------------------------------------------------------- URLs

  /** The backend's WebSocket base URL (`backend_ws_url`): `https://` turns
      into `wss://`, `http://` into `ws://`, and anything else is prefixed
      with `ws://`. */
  function BackendWsUrl(base: Str): (r: Str)
    ensures IsPrefix("ws://", r) || IsPrefix("wss://", r)
    ensures IsPrefix("wss://", r) <==> IsPrefix("https://", base)
  {
    if IsPrefix("https://", base) then "wss://" + base[8..]
    else if IsPrefix("http://", base) then
      assert ("ws://" + base[7..])[2] == ':';
      "ws://" + base[7..]
    else
      assert ("ws://" + base)[2] == ':';
      "ws://" + base
  }

  lemma WsUrlOfHttps(rest: Str)
    ensures BackendWsUrl("https://" + rest) == "wss://" + rest
  {
    assert ("https://" + rest)[..8] == "https://";
    assert ("https://" + rest)[8..] == rest;
  }

  lemma WsUrlOfHttp(rest: Str)
    ensures BackendWsUrl("http://" + rest) == "ws://" + rest
  {
    var s := "http://" + rest;
    assert s[..7] == "http://";
    assert s[7..] == rest;
    assert s[4] == ':';
  }

  /** A base without an http(s) scheme is kept whole behind `ws://`. */
  lemma WsUrlOfSchemeless(base: Str)
    requires !IsPrefix("http://", base) && !IsPrefix("https://", base)
    ensures BackendWsUrl(base) == "ws://" + base
  {
  }

  /** The request's path and query, or its path when it has none. */
  function PathQuery(pathAndQuery: Option<Str>, path: Str): (r: Str)
    ensures pathAndQuery.Some? ==> r == pathAndQuery.value
    ensures pathAndQuery.None? ==> r == path
  {
    pathAndQuery.GetOr(path)
  }

  /** The path sent to the backend: `pathQuery` without `strip`, when
      `strip` is non-empty and `pathQuery` starts with it; otherwise
      `pathQuery` unchanged. */
  function TargetPath(pathQuery: Str, strip: Str): (r: Str)
    ensures |r| <= |pathQuery| && r == pathQuery[|pathQuery| - |r|..]
    ensures strip != [] && IsPrefix(strip, pathQuery) ==> strip + r == pathQuery
    ensures !(strip != [] && IsPrefix(strip, pathQuery)) ==> r == pathQuery
  {
    if strip != [] && IsPrefix(strip, pathQuery) then pathQuery[|strip|..] else pathQuery
  }

  /** Stripping a prefix that was put in front of a path gives the path. */
  lemma TargetPathStripsMount(strip: Str, p: Str)
    requires strip != []
    ensures TargetPath(strip + p, strip) == p
  {
    assert (strip + p)[..|strip|] == strip;
  }

  // ------------------------------------------------------- header filters

  /** Headers copied to the backend on the HTTP leg: all but `host`. */
  function ForwardHeaders(h: Headers): (r: Headers)
    ensures |r| <= |h|
    ensures forall x :: x in r <==> x in h && x.name != "host"
    decreases |h|
  {
    if h == [] then []
    else
      assert forall x :: x in h <==> x == h[0] || x in h[1..];
      (if h[0].name != "host" then [h[0]] else []) + ForwardHeaders(h[1..])
  }

  /** The filter keeps relative order: filtering a concatenation filters
      each part. */
  lemma {:induction false} ForwardHeadersConcat(a: Headers, b: Headers)
    ensures ForwardHeaders(a + b) == ForwardHeaders(a) + ForwardHeaders(b)
    decreases |a|
  {
    if a == [] {
      assert a + b == b;
    } else {
      assert (a + b)[0] == a[0];
      assert (a + b)[1..] == a[1..] + b;
      ForwardHeadersConcat(a[1..], b);
    }
  }

  /** Without a `host` header every header is forwarded, in order. */
  lemma {:induction false} ForwardHeadersNoHost(h: Headers)
    requires forall i :: 0 <= i < |h| ==> h[i].name != "host"
    ensures ForwardHeaders(h) == h
    decreases |h|
  {
    if h != [] {
      ForwardHeadersNoHost(h[1..]);
    }
  }

  /** The headers the backend WebSocket handshake copies from the client. */
  const WsForwardedNames: seq<Str> :=
    ["cookie", "authorization", "user-agent", "sec-websocket-protocol", "origin"]

  /** For each allowed name in turn, its first inbound value, if present. */
  function CopyAllowed(h: Headers, names: seq<Str>): (r: Headers)
    ensures |r| <= |names|
    ensures forall x :: x in r <==> x.name in names && Get(h, x.name) == Some(x.value)
    ensures forall i :: 0 <= i < |r| ==> r[i].name in names
    ensures Distinct(names) ==> forall i, j :: 0 <= i < j < |r| ==> r[i].name != r[j].name
    decreases |names|
  {
    if names == [] then []
    else
      var first := match Get(h, names[0])
        case Some(v) => [Header(names[0], v)]
        case None => [];
      first + CopyAllowed(h, names[1..])
  }

  /** Copying for a list of names in two parts copies for each part in
      turn, so the copied headers follow the order of the names. */
  lemma {:induction false} CopyAllowedConcat(h: Headers, a: seq<Str>, b: seq<Str>)
    ensures CopyAllowed(h, a + b) == CopyAllowed(h, a) + CopyAllowed(h, b)
    decreases |a|
  {
    if a == [] {
      assert a + b == b;
    } else {
      assert (a + b)[0] == a[0];
      assert (a + b)[1..] == a[1..] + b;
      CopyAllowedConcat(h, a[1..], b);
    }
  }

  /** The extra headers of the backend WebSocket handshake: only the five
      allowed names, only those present inbound, each with its value, and
      each name at most once. */
  function WsHandshakeHeaders(h: Headers): (r: Headers)
    ensures |r| <= 5
    ensures forall x :: x in r <==> x.name in WsForwardedNames && Get(h, x.name) == Some(x.value)
    ensures forall i, j :: 0 <= i < j < |r| ==> r[i].name != r[j].name
  {
    assert Distinct(WsForwardedNames);
    CopyAllowed(h, WsForwardedNames)
  }

  /** A header outside the allow-list never reaches the backend socket,
      whatever its value. */
  lemma HandshakeDropsOthers(h: Headers, x: Header)
    requires x.name !in WsForwardedNames
    ensures x !in WsHandshakeHeaders(h)
  {
  }

  // ------------------------------------------------------- HTTP leg

  /** An inbound request; the body is its sequence of chunks. */
  datatype Request = Request(verb: Str, pathAndQuery: Option<Str>, path: Str,
                             headers: Headers, body: seq<Bytes>)

  /** The request the HTTP client sends to the backend. */
  datatype Outbound = Outbound(verb: Str, url: Str, headers: Headers, body: seq<Bytes>)

  /** What came back from the backend: a response, or a transport error
      (refused, reset, timed out). */
  datatype Reply = Replied(status: u16, headers: Headers, body: seq<Bytes>) | TransportError

  datatype Response = Response(status: u16, headers: Headers, body: seq<Bytes>)

  const BadGateway: u16 := 502

  /** The backend request built by `proxy_request`. */
  function BackendRequest(req: Request, base: Str, strip: Str): (r: Outbound)
    ensures r.verb == req.verb && r.body == req.body
    ensures IsPrefix(base, r.url)
    ensures strip == [] ==> r.url == base + PathQuery(req.pathAndQuery, req.path)
    ensures r.url[|base|..] == TargetPath(PathQuery(req.pathAndQuery, req.path), strip)
    ensures forall x :: x in r.headers <==> x in req.headers && x.name != "host"
    ensures r.headers == ForwardHeaders(req.headers)
  {
    var target := TargetPath(PathQuery(req.pathAndQuery, req.path), strip);
    assert (base + target)[..|base|] == base;
    Outbound(req.verb, base + target, ForwardHeaders(req.headers), req.body)
  }

  /** The client's response: the backend's status, headers and body on
      success, and `502` with no headers and an empty body on a transport
      error. */
  function RelayReply(reply: Reply): (r: Response)
    ensures reply.TransportError? ==> r == Response(BadGateway, [], [])
    ensures reply.Replied? ==> r.status == reply.status && r.headers == reply.headers && r.body == reply.body
  {
    match reply
    case Replied(s, h, b) => Response(s, h, b)
    case TransportError => Response(BadGateway, [], [])
  }

  /** `proxy_request`, with `send` standing for the backend round trip. */
  function ProxyRequest(req: Request, base: Str, strip: Str, send: Outbound -> Reply): (r: Response)
    ensures send(BackendRequest(req, base, strip)).TransportError? ==> r == Response(BadGateway, [], [])
    ensures send(BackendRequest(req, base, strip)).Replied? ==>
              var reply := send(BackendRequest(req, base, strip));
              r.status == reply.status && r.headers == reply.headers && r.body == reply.body
  {
    RelayReply(send(BackendRequest(req, base, strip)))
  }

  /** An unreachable backend turns every request into an empty 502. */
  lemma UnreachableGives502(req: Request, base: Str, strip: Str, send: Outbound -> Reply)
    requires forall o :: send(o) == TransportError
    ensures ProxyRequest(req, base, strip, send) == Response(BadGateway, [], [])
  {
  }

  // ------------------------------------------------------- dispatch

  /** The handshake request `handle_socket` sends to the backend. */
  datatype Handshake = Handshake(url: Str, headers: Headers)

  /** How `proxy_handler` disposes of a request. */
  datatype Dispatch =
    | Upgraded(url: Str, protocols: seq<Str>, inbound: Headers)
    | UpgradeRefused
    | Forwarded(response: Response)

  /** `proxy_handler`: a WebSocket upgrade goes to the bridge (when the
      client handshake extractor accepts it, `upgradeAccepted`), anything
      else is proxied over HTTP with nothing stripped. */
  function Handle(backendUrl: Str, req: Request, upgradeAccepted: bool, send: Outbound -> Reply): (d: Dispatch)
    ensures d.Forwarded? <==> !IsWebSocketRequest(req.headers)
    ensures d.Upgraded? <==> IsWebSocketRequest(req.headers) && upgradeAccepted
    ensures d.Upgraded? ==> d.inbound == req.headers
    ensures d.Forwarded? ==> d.response == RelayReply(send(Outbound(req.verb,
              backendUrl + PathQuery(req.pathAndQuery, req.path), ForwardHeaders(req.headers), req.body)))
    ensures d.Upgraded? ==> d.url == BackendWsUrl(backendUrl) + PathQuery(req.pathAndQuery, req.path)
                            && d.protocols == Subprotocols(req.headers)
  {
    if IsWebSocketRequest(req.headers) then
      if upgradeAccepted then
        Upgraded(BackendWsUrl(backendUrl) + PathQuery(req.pathAndQuery, req.path),
                 Subprotocols(req.headers), req.headers)
      else UpgradeRefused
    else
      ProxyRequestNoStrip(req, backendUrl);
      Forwarded(ProxyRequest(req, backendUrl, [], send))
  }

  lemma ProxyRequestNoStrip(req: Request, base: Str)
    ensures BackendRequest(req, base, []).url == base + PathQuery(req.pathAndQuery, req.path)
  {
  }

  /** A bridge session either aborts before relaying (the backend URL does
      not parse or the backend refuses the connection) or starts relaying
      with the handshake carrying only the allowed headers. */
  datatype Session = Aborted | Relaying(handshake: Handshake)

  function OpenSession(url: Str, inbound: Headers, urlValid: bool, connected: bool): (s: Session)
    ensures s.Relaying? <==> urlValid && connected
    ensures s.Relaying? ==> s.handshake.url == url
    ensures s.Relaying? ==> forall x :: x in s.handshake.headers <==>
              x.name in WsForwardedNames && Get(inbound, x.name) == Some(x.value)
    ensures s.Relaying? ==> forall i, j :: 0 <= i < j < |s.handshake.headers| ==>
              s.handshake.headers[i].name != s.handshake.headers[j].name
  {
    if !urlValid || !connected then Aborted
    else Relaying(Handshake(url, WsHandshakeHeaders(inbound)))
  }
}

=== FILE: strings.dfy ===
/** ASCII text, bytes and the few standard-library string operations the
    proxy relies on: case folding, trimming, splitting on a separator,
    decimal formatting and Rust's decimal integer parsing. Only ASCII is
    given meaning; other characters pass through unchanged. */
module Strings {
  import opened Wrappers

  type Str = seq<char>
  type byte = x: int | 0 <= x < 0x100
  type Bytes = seq<byte>

  /** Rust's fixed-width integers used by the source. */
  type u16 = x: int | 0 <= x < 0x1_0000
  type u64 = x: int | 0 <= x < 0x1_0000_0000_0000_0000
  type i64 = x: int | -0x8000_0000_0000_0000 <= x < 0x8000_0000_0000_0000

  predicate IsPrefix<T(==)>(p: seq<T>, s: seq<T>) {
    |p| <= |s| && s[..|p|] == p
  }

  /** `str::contains` on a substring. */
  predicate Contains(s: Str, sub: Str)
    decreases |s|
  {
    IsPrefix(sub, s) || (|s| > 0 && Contains(s[1..], sub))
  }

  // ---------------------------------------------------------------- case

  function LowerChar(c: char): char {
    if 'A' <= c <= 'Z' then (c as int + 32) as char else c
  }

  /** ASCII lower-casing; every other character is kept. */
  function Lower(s: Str): (r: Str)
    ensures |r| == |s|
    ensures forall i :: 0 <= i < |s| ==> r[i] == LowerChar(s[i])
  {
    seq(|s|, i requires 0 <= i < |s| => LowerChar(s[i]))
  }

  /** `str::eq_ignore_ascii_case`: equal length and pairwise equal once
      ASCII letters are folded. */
  predicate EqIgnoreAsciiCase(a: Str, b: Str) {
    |a| == |b| && forall i :: 0 <= i < |a| ==> LowerChar(a[i]) == LowerChar(b[i])
  }

  /** Comparing ignoring ASCII case is comparing the lower-cased texts. */
  lemma EqIgnoreAsciiCaseIffLowerEqual(a: Str, b: Str)
    ensures EqIgnoreAsciiCase(a, b) <==> Lower(a) == Lower(b)
  {
    if Lower(a) == Lower(b) {
      assert |a| == |b|;
      forall i | 0 <= i < |a| ensures LowerChar(a[i]) == LowerChar(b[i]) {
        assert Lower(a)[i] == Lower(b)[i];
      }
    }
  }

  // ---------------------------------------------------------------- trim

  /** ASCII whitespace: tab, line feed, vertical tab, form feed, carriage
      return and space. */
  predicate IsWhite(c: char) {
    c == ' ' || '\t' <= c <= '\r'
  }

  predicate AllWhite(s: Str) {
    forall i :: 0 <= i < |s| ==> IsWhite(s[i])
  }

  /** Neither starts nor ends with whitespace. */
  predicate IsTrimmed(s: Str) {
    s == [] || (!IsWhite(s[0]) && !IsWhite(s[|s| - 1]))
  }

  /** `r` is `s` with white text cut off the front, and does not start
      with white. */
  predicate FrontCut(s: Str, r: Str) {
    |r| <= |s| && r == s[|s| - |r|..] && (r == [] || !IsWhite(r[0])) && AllWhite(s[..|s| - |r|])
  }

  /** `r` is `s` with white text cut off the back, and does not end with
      white. */
  predicate BackCut(s: Str, r: Str) {
    |r| <= |s| && r == s[..|r|] && (r == [] || !IsWhite(r[|r| - 1])) && AllWhite(s[|r|..])
  }

  /** `r` sits in `s` at offset `lo` with only white text around it. */
  predicate WhiteAround(s: Str, lo: nat, r: Str) {
    lo + |r| <= |s| && s[lo..lo + |r|] == r && AllWhite(s[..lo]) && AllWhite(s[lo + |r|..])
  }

  function TrimStart(s: Str): (r: Str)
    ensures FrontCut(s, r)
    decreases |s|
  {
    if |s| > 0 && IsWhite(s[0]) then
      var r := TrimStart(s[1..]);
      assert FrontCut(s, r) by {
        var k := |s| - |r|;
        assert s[1..][|s| - 1 - |r|..] == s[k..];
        forall i | 0 <= i < k ensures s[..k][i] == s[i] && IsWhite(s[i]) {
          if i > 0 {
            assert s[i] == s[1..][..k - 1][i - 1];
          }
        }
      }
      r
    else s
  }

  function TrimEnd(s: Str): (r: Str)
    ensures BackCut(s, r)
    decreases |s|
  {
    if |s| > 0 && IsWhite(s[|s| - 1]) then
      var r := TrimEnd(s[..|s| - 1]);
      assert BackCut(s, r) by {
        assert s[..|s| - 1][..|r|] == s[..|r|];
        forall j | 0 <= j < |s| - |r| ensures s[|r|..][j] == s[|r| + j] && IsWhite(s[|r| + j]) {
          if |r| + j < |s| - 1 {
            assert s[|r| + j] == s[..|s| - 1][|r|..][j];
          }
        }
      }
      r
    else s
  }

  /** `str::trim`: the longest middle slice that neither starts nor ends
      with whitespace; only whitespace is removed on either side. */
  function Trim(s: Str): (r: Str)
    ensures IsTrimmed(r)
    ensures WhiteAround(s, |s| - |TrimStart(s)|, r)
  {
    var t := TrimStart(s);
    TrimBothEnds(s, t, TrimEnd(t));
    TrimEnd(t)
  }

  /** Cutting white text off the front and then off the back leaves a
      middle slice with white on both sides. */
  lemma TrimBothEnds(s: Str, t: Str, r: Str)
    requires FrontCut(s, t) && BackCut(t, r)
    ensures IsTrimmed(r)
    ensures WhiteAround(s, |s| - |t|, r)
  {
    var lo := |s| - |t|;
    assert IsTrimmed(r) by {
      if r != [] {
        assert r[0] == t[0];
      }
    }
    assert s[lo..lo + |r|] == r by {
      assert t == s[lo..];
      assert r == t[..|r|];
    }
    assert AllWhite(s[lo + |r|..]) by {
      assert s[lo + |r|..] == t[|r|..];
    }
  }

  /** Leading whitespace is dropped one character at a time. */
  lemma TrimSkipsWhite(c: char, s: Str)
    requires IsWhite(c)
    ensures Trim([c] + s) == Trim(s)
  {
    assert ([c] + s)[1..] == s;
    assert TrimStart([c] + s) == TrimStart(s);
  }

  /** Trimming text that is already trimmed changes nothing. */
  lemma TrimOfTrimmed(s: Str)
    requires IsTrimmed(s)
    ensures Trim(s) == s
  {
  }

  // ---------------------------------------------------------------- split

  /** No element occurs twice. */
  predicate Distinct<T(==)>(s: seq<T>) {
    forall i, j :: 0 <= i < j < |s| ==> s[i] != s[j]
  }

  function Count<T(==)>(s: seq<T>, x: T): nat
    decreases |s|
  {
    if s == [] then 0 else (if s[0] == x then 1 else 0) + Count(s[1..], x)
  }

  lemma {:induction false} CountConcat<T>(a: seq<T>, b: seq<T>, x: T)
    ensures Count(a + b, x) == Count(a, x) + Count(b, x)
    decreases |a|
  {
    if a == [] {
      assert a + b == b;
    } else {
      assert (a + b)[1..] == a[1..] + b;
      CountConcat(a[1..], b, x);
    }
  }

  lemma {:induction false} CountAbsent<T>(s: seq<T>, x: T)
    requires x !in s
    ensures Count(s, x) == 0
    decreases |s|
  {
    if s != [] {
      assert s[1..] <= s[1..];
      assert forall y :: y in s[1..] ==> y in s;
      CountAbsent(s[1..], x);
    }
  }

  /** Index of the first occurrence of `c` in `s`. */
  function IndexOf(s: Str, c: char): (i: nat)
    requires c in s
    ensures i < |s| && s[i] == c && c !in s[..i]
    decreases |s|
  {
    if s[0] == c then 0 else 1 + IndexOf(s[1..], c)
  }

  /** The first occurrence is the one with no earlier occurrence. */
  lemma {:induction false} IndexOfFirst(s: Str, c: char, k: nat)
    requires k < |s| && s[k] == c && c !in s[..k]
    ensures IndexOf(s, c) == k
    decreases k
  {
    if k > 0 {
      assert s[0] == s[..k][0];
      assert s[1..][..k - 1] == s[..k][1..];
      IndexOfFirst(s[1..], c, k - 1);
    }
  }

  /** The pieces joined back with the separator between each two. */
  function Join(parts: seq<Str>, sep: char): Str
    decreases |parts|
  {
    if parts == [] then []
    else if |parts| == 1 then parts[0]
    else parts[0] + [sep] + Join(parts[1..], sep)
  }

  /** `str::split` on a single character: one piece more than there are
      separators, no piece holding a separator, and joining the pieces
      gives the text back. */
  function Split(s: Str, sep: char): (r: seq<Str>)
    ensures |r| == Count(s, sep) + 1
    ensures forall i :: 0 <= i < |r| ==> sep !in r[i]
    ensures Join(r, sep) == s
    decreases |s|
  {
    if sep !in s then
      CountAbsent(s, sep);
      [s]
    else
      var i := IndexOf(s, sep);
      var rest := Split(s[i + 1..], sep);
      assert s == s[..i] + [sep] + s[i + 1..];
      CountConcat(s[..i] + [sep], s[i + 1..], sep);
      CountConcat(s[..i], [sep], sep);
      CountAbsent(s[..i], sep);
      assert ([s[..i]] + rest)[1..] == rest;
      [s[..i]] + rest
  }

  /** Splitting undoes joining pieces that hold no separator. */
  lemma {:induction false} SplitJoin(parts: seq<Str>, sep: char)
    requires |parts| >= 1
    requires forall i :: 0 <= i < |parts| ==> sep !in parts[i]
    ensures Split(Join(parts, sep), sep) == parts
    decreases |parts|
  {
    if |parts| > 1 {
      var s := Join(parts, sep);
      assert s == parts[0] + [sep] + Join(parts[1..], sep);
      assert sep in s by { assert s[|parts[0]|] == sep; }
      var i := IndexOf(s, sep);
      assert s[..|parts[0]|] == parts[0];
      IndexOfFirst(s, sep, |parts[0]|);
      assert s[..i] == parts[0];
      assert s[i + 1..] == Join(parts[1..], sep);
      SplitJoin(parts[1..], sep);
      assert parts == [parts[0]] + parts[1..];
    }
  }

  /** Two texts that agree after their first separator split the same way. */
  lemma SplitAtFirst(a: Str, b: Str, a': Str, b': Str, c: char)
    requires c !in a && c !in a'
    requires a + [c] + b == a' + [c] + b'
    ensures a == a' && b == b'
  {
    var s := a + [c] + b;
    assert s[..|a|] == a && s[..|a'|] == a';
    IndexOfFirst(s, c, |a|);
    IndexOfFirst(s, c, |a'|);
    assert a == s[..|a|];
    assert b == s[|a| + 1..];
  }

  /** `str::rsplit_once` on a character: the text before and after the
      last occurrence of `c`. */
  function RSplitOnce(s: Str, c: char): (r: Option<(Str, Str)>)
    ensures r.None? <==> c !in s
    ensures r.Some? ==> r.value.0 + [c] + r.value.1 == s && c !in r.value.1
    decreases |s|
  {
    if s == [] then None
    else if s[|s| - 1] == c then
      assert s == s[..|s| - 1] + [c];
      Some((s[..|s| - 1], []))
    else
      match RSplitOnce(s[..|s| - 1], c)
      case None =>
        assert s == s[..|s| - 1] + [s[|s| - 1]];
        None
      case Some(p) =>
        assert s == s[..|s| - 1] + [s[|s| - 1]];
        Some((p.0, p.1 + [s[|s| - 1]]))
  }

  /** Splitting at the last `c` recovers both sides when the right side
      holds no `c`. */
  lemma {:induction false} RSplitOnceOfJoin(a: Str, b: Str, c: char)
    requires c !in b
    ensures RSplitOnce(a + [c] + b, c) == Some((a, b))
    decreases |b|
  {
    var s := a + [c] + b;
    if b != [] {
      var b' := b[..|b| - 1];
      assert s[..|s| - 1] == a + [c] + b';
      assert s[|s| - 1] == b[|b| - 1];
      assert b[|b| - 1] in b;
      RSplitOnceOfJoin(a, b', c);
      assert b' + [b[|b| - 1]] == b;
    } else {
      assert s[|s| - 1] == c;
      assert s[..|s| - 1] == a;
    }
  }

  // ---------------------------------------------------------------- decimal

  predicate IsDigit(c: char) {
    '0' <= c <= '9'
  }

  predicate AllDigits(s: Str) {
    forall i :: 0 <= i < |s| ==> IsDigit(s[i])
  }

  function DigitChar(d: nat): (c: char)
    requires d < 10
    ensures IsDigit(c)
  {
    ('0' as int + d) as char
  }

  /** Decimal text of a natural number (`format!("{}", n)`): digits only,
      never empty, and no leading zero except for zero itself. */
  function Decimal(n: nat): (r: Str)
    ensures |r| >= 1 && AllDigits(r)
    ensures r[0] == '0' ==> n == 0
    decreases n
  {
    if n < 10 then [DigitChar(n)] else Decimal(n / 10) + [DigitChar(n % 10)]
  }

  /** The value of a digit string, most significant digit first. */
  function DigitsValue(s: Str): nat
    requires AllDigits(s)
    decreases |s|
  {
    if s == [] then 0 else DigitsValue(s[..|s| - 1]) * 10 + (s[|s| - 1] as int - '0' as int)
  }

  /** Reading back a decimal text gives the number. */
  lemma {:induction false} DigitsValueOfDecimal(n: nat)
    ensures DigitsValue(Decimal(n)) == n
    decreases n
  {
    if n >= 10 {
      var d := Decimal(n);
      assert d[..|d| - 1] == Decimal(n / 10);
      DigitsValueOfDecimal(n / 10);
    }
  }

  /** Rust's unsigned decimal parse without the range check: an optional
      `+`, then at least one ASCII digit and nothing else. */
  function ParseNat(s: Str): Option<nat> {
    var digits := if |s| > 0 && s[0] == '+' then s[1..] else s;
    if |digits| > 0 && AllDigits(digits) then Some(DigitsValue(digits)) else None
  }

  /** `str::parse::<u16>`: a decimal that fits in 16 bits. */
  function ParseU16(s: Str): (r: Option<u16>)
    ensures r.Some? ==> ParseNat(s) == Some(r.value as nat)
    ensures r.None? ==> ParseNat(s).None? || ParseNat(s).value >= 0x1_0000
  {
    match ParseNat(s)
    case Some(v) => if v < 0x1_0000 then Some(v) else None
    case None => None
  }

  /** `str::parse::<i64>`: an optional sign, then digits, in range. */
  function ParseI64(s: Str): (r: Option<i64>)
    ensures ParseNat(s).Some? && ParseNat(s).value < 0x8000_0000_0000_0000 ==> r == Some(ParseNat(s).value)
    ensures ParseNat(s).Some? && ParseNat(s).value >= 0x8000_0000_0000_0000 ==> r.None?
    ensures |s| > 1 && s[0] == '-' && AllDigits(s[1..]) ==>
              (r.Some? <==> DigitsValue(s[1..]) <= 0x8000_0000_0000_0000)
              && (r.Some? ==> r.value == 0 - DigitsValue(s[1..]))
    ensures r.Some? && r.value < 0 ==> |s| > 1 && s[0] == '-'
    ensures r.Some? ==> ParseNat(s).Some? || (|s| > 1 && s[0] == '-' && AllDigits(s[1..]))
  {
    if |s| > 1 && s[0] == '-' && AllDigits(s[1..]) then
      var v := DigitsValue(s[1..]);
      if v <= 0x8000_0000_0000_0000 then Some(0 - v) else None
    else
      match ParseNat(s)
      case Some(v) => if v < 0x8000_0000_0000_0000 then Some(v) else None
      case None => None
  }

  /** Decimal text of a signed number (`format!("{}", n)`): a minus sign
      before the magnitude when negative. */
  function SignedDecimal(n: int): (r: Str)
    ensures |r| >= 1
    ensures n < 0 <==> r[0] == '-'
  {
    if n < 0 then "-" + Decimal(-n) else Decimal(n)
  }

  /** Every 64-bit signed number formatted in decimal parses back to
      itself, the most negative one included. */
  lemma ParseI64OfSignedDecimal(n: i64)
    ensures ParseI64(SignedDecimal(n)) == Some(n)
  {
    var s := SignedDecimal(n);
    if n < 0 {
      var m: nat := -(n as int);
      var digits := Decimal(m);
      assert s == "-" + digits;
      assert s[1..] == digits;
      DigitsValueOfDecimal(m);
      assert |s| > 1 && s[0] == '-' && AllDigits(s[1..]) && DigitsValue(s[1..]) == m;
    } else {
      DigitsValueOfDecimal(n);
      assert s == Decimal(n) && s[0] != '+' && s[0] != '-';
    }
  }

  /** A port formatted in decimal parses back to itself. */
  lemma ParseU16OfDecimal(p: u16)
    ensures ParseU16(Decimal(p)) == Some(p)
  {
    DigitsValueOfDecimal(p);
    assert Decimal(p)[0] != '+';
  }

  /** Distinct numbers have distinct decimal texts. */
  lemma DecimalInjective(m: nat, n: nat)
    requires Decimal(m) == Decimal(n)
    ensures m == n
  {
    DigitsValueOfDecimal(m);
    DigitsValueOfDecimal(n);
  }
}

=== FILE: wrappers.dfy ===
/** Failure-compatible Option and Result, in the shape of Rust's own. */
module Wrappers {

  /** A value that may be absent (Rust's `Option`, or a nullable pointer). */
  datatype Option<+T> = None | Some(value: T) {

    /** Returns the wrapped value, or `default` when absent (`unwrap_or`). */
    function GetOr(default: T): T {
      match this
      case Some(v) => v
      case None => default
    }
  }

  /** A success value or an error value (Rust's `Result`); usable with `:-`. */
  datatype Result<+T, +E> = Ok(value: T) | Err(error: E) {

    predicate IsFailure() {
      Err?
    }

    function PropagateFailure<U>(): Result<U, E>
      requires Err?
    {
      Err(error)
    }

    function Extract(): T
      requires Ok?
    {
      value
    }
  }
}

=== FILE: ws_message.dfy ===
/** The two WebSocket message representations the bridge relays between:
    the client-facing one (axum) and the backend-facing one (tungstenite),
    and the translations `axum_to_tungstenite` / `tungstenite_to_axum`. */
module WsMessage {
  import opened Wrappers
  import opened Strings

  /** A close frame: status code and reason text. tungstenite's `CloseCode`
      converts to and from `u16` without loss, so both sides carry the code
      as a `u16`. */
  datatype CloseFrame = CloseFrame(code: u16, reason: Str)

  /** A message as the client-facing socket reads and writes it. */
  datatype ClientMsg =
    | Text(text: Str)
    | Binary(data: Bytes)
    | Ping(data: Bytes)
    | Pong(data: Bytes)
    | Close(frame: Option<CloseFrame>)

  /** A message as the backend-facing socket reads and writes it; `Frame` is
      a raw low-level frame that carries no application message. */
  datatype BackendMsg =
    | BText(text: Str)
    | BBinary(data: Bytes)
    | BPing(data: Bytes)
    | BPong(data: Bytes)
    | BClose(frame: Option<CloseFrame>)
    | BFrame(raw: Bytes)

  /** The message kinds both sides share. */
  datatype Kind = TextKind | BinaryKind | PingKind | PongKind | CloseKind

  function ClientKind(m: ClientMsg): Kind {
    match m
    case Text(_) => TextKind
    case Binary(_) => BinaryKind
    case Ping(_) => PingKind
    case Pong(_) => PongKind
    case Close(_) => CloseKind
  }

  /** Kind of a backend message; a raw frame is delivered as binary. */
  function BackendKind(m: BackendMsg): Kind {
    match m
    case BText(_) => TextKind
    case BBinary(_) | BFrame(_) => BinaryKind
    case BPing(_) => PingKind
    case BPong(_) => PongKind
    case BClose(_) => CloseKind
  }

  /** The bytes a data-carrying message holds (text as none). */
  function ClientPayload(m: ClientMsg): Bytes {
    match m
    case Binary(d) => d
    case Ping(d) => d
    case Pong(d) => d
    case _ => []
  }

  /** Client-to-backend translation (`axum_to_tungstenite`). It never
      drops a message: every client message is forwarded, of the same
      kind, with the same text, payload or close frame. */
  function ClientToBackend(m: ClientMsg): (r: Option<BackendMsg>)
    ensures r.Some?
    ensures !r.value.BFrame?
    ensures BackendKind(r.value) == ClientKind(m)
    ensures m.Text? ==> r.value.text == m.text
    ensures m.Close? ==> r.value.frame == m.frame
    ensures (m.Binary? || m.Ping? || m.Pong?) ==> r.value.data == ClientPayload(m)
  {
    match m
    case Text(t) => Some(BText(t))
    case Binary(b) => Some(BBinary(b))
    case Ping(p) => Some(BPing(p))
    case Pong(p) => Some(BPong(p))
    case Close(c) => Some(BClose(c))
  }

  /** Backend-to-client translation (`tungstenite_to_axum`). Every message
      keeps its kind; a raw frame becomes an empty binary message. */
  function BackendToClient(m: BackendMsg): (r: ClientMsg)
    ensures ClientKind(r) == BackendKind(m)
    ensures m.BFrame? ==> r == Binary([])
    ensures m.BText? ==> r.text == m.text
    ensures m.BClose? ==> r.frame == m.frame
    ensures (m.BBinary? || m.BPing? || m.BPong?) ==> r.data == m.data
  {
    match m
    case BText(t) => Text(t)
    case BBinary(b) => Binary(b)
    case BPing(p) => Ping(p)
    case BPong(p) => Pong(p)
    case BClose(c) => Close(c)
    case BFrame(_) => Binary([])
  }

  /** Any client message relayed to the backend and back arrives unchanged:
      kind, text, payload and close code and reason all survive. */
  lemma ClientRoundTrip(m: ClientMsg)
    ensures BackendToClient(ClientToBackend(m).value) == m
  {
  }

  /** Any backend message other than a raw frame relayed to the client and
      back arrives unchanged; a raw frame comes back as an empty binary. */
  lemma BackendRoundTrip(m: BackendMsg)
    ensures !m.BFrame? ==> ClientToBackend(BackendToClient(m)) == Some(m)
    ensures m.BFrame? ==> ClientToBackend(BackendToClient(m)) == Some(BBinary([]))
  {
  }

  /** Translation toward the backend is one-to-one: distinct client
      messages are never conflated. */
  lemma ClientToBackendInjective(m1: ClientMsg, m2: ClientMsg)
    requires ClientToBackend(m1) == ClientToBackend(m2)
    ensures m1 == m2
  {
    ClientRoundTrip(m1);
    ClientRoundTrip(m2);
  }

  /** Relaying one direction maps every message in arrival order; nothing is
      dropped, added or reordered. */
  function RelayToBackend(ms: seq<ClientMsg>): (r: seq<BackendMsg>)
    ensures |r| == |ms|
    ensures forall i :: 0 <= i < |ms| ==> Some(r[i]) == ClientToBackend(ms[i])
    decreases |ms|
  {
    if ms == [] then [] else [ClientToBackend(ms[0]).value] + RelayToBackend(ms[1..])
  }

  function RelayToClient(ms: seq<BackendMsg>): (r: seq<ClientMsg>)
    ensures |r| == |ms|
    ensures forall i :: 0 <= i < |ms| ==> r[i] == BackendToClient(ms[i])
    decreases |ms|
  {
    if ms == [] then [] else [BackendToClient(ms[0])] + RelayToClient(ms[1..])
  }

  /** A client stream relayed to the backend and back is the same stream. */
  lemma {:induction false} StreamRoundTrip(ms: seq<ClientMsg>)
    ensures RelayToClient(RelayToBackend(ms)) == ms
  {
    var r := RelayToClient(RelayToBackend(ms));
    forall i | 0 <= i < |ms| ensures r[i] == ms[i] {
      ClientRoundTrip(ms[i]);
    }
  }
}
